=== FILE: README.md ===
# Narramancer dice-roll protocol, in Dafny

Narramancer is a text adventure whose narrator is a language model. The narrator asks
for dice by writing a roll marker `[roll:NdS]` in its reply. Two front ends share the
game master:

- a Telegram bot that shows the reply with the marker replaced by a waiting note and a
  roll button, and hands the total back to the narrator when the button is pressed;
- a web page whose per-browser session keeps the chat log, the roll waiting for its
  button, and a character sheet scraped once from the narrator's first reply.

This project models the protocol around those markers. The files are:

- `strings.dfy`: the Python string operations the code relies on, as Dafny
  functions. These are `str(n)`, `int(s)`, `str.strip()`, `str.lower()`,
  `str.replace`, `str.split`, `str.join` and `sum`, each with the properties the rest
  of the model uses.
- `notation.dfy`: the dice notation `NdS` as `re.match(r"(\d+)d(\d+)", ...)` reads it.
- `dice_roller.py` is modelled in `dice_roller.dfy`:
  - `extract_dice` and `clean_text` work on the `{{roll:NdS}}` pattern;
  - `roll` draws its numbers from a given sequence instead of `random.randint`.
- `roll_marker.dfy`: the first-marker search `re.search(r"\[roll:(\d+)d(\d+)\]", ...)`
  that every front end and the game master use.
- `chatbot.dfy`: `DNDChatbot` as a class. It has the per-session memory,
  `get_session_history` and `interact`. The language-model chain is a function
  parameter.
- `bot_handlers.dfy`: the Telegram handlers `handle_message` and `handle_roll`. It also
  covers the button payload `roll_{count}d{sides}` and its parsing.
- `stats_scrape.dfy`: the two regular expressions that read hit points and gold from a
  reply.
- `web_app.dfy`: the web session as a class over the `st.session_state` fields. Its
  methods are the stats update, "Start Adventure", the roll button and the chat input.
  A session invariant holds after every script run.

Regular expressions become deterministic left-to-right scanners. Each pattern here is
built so that every greedy run is followed by something the run cannot consume. For
that reason the greedy reading makes the same choices as the engine's backtracking.
For the dice notation, the `{{roll:NdS}}` pattern and the roll marker, lemmas prove the
matcher sound and complete against the pattern's language. It accepts exactly the
texts of the pattern, finds the leftmost match, and finds that match's unique end.
The two status patterns of the web page, `HP:\s*(\d+)\s*/\s*(\d+)` and
`Gold Coins:\s*(\d+)`, share one token-list scanner. It is held to a weaker standard.
Lemmas prove three things about it:

- the search returns the leftmost position where the scanner matches;
- every group is a digit run;
- the canonical status text reads back with its numbers when it follows text in which
  no match starts.

No lemma relates this scanner to the full language of these patterns, with its
optional whitespace.

## Model

| member | source | states |
|---|---|---|
| Strings.IntRoundTrip | model/model.py:99-109 | `int(str(i)) == i` for every integer, so the roll the chain receives reads back as the parsed roll |
| Strings.SplitJoinRestores | handlers/user.py:106 | joining the pieces of `s.split(t)` with `t` gives back `s` |
| Strings.ReplaceAllIsSplitJoin | model/model.py:102-105 | `s.replace(t, r)` is `r.join(s.split(t))`: every occurrence is replaced and the text between occurrences is kept |
| Strings.ReplaceAllRemoves | handlers/user.py:93 | a replacement that cannot help form `t` around its edges leaves no occurrence of `t` |
| Strings.SumBounds | app.py:118 | a sum of n values, each in `[lo, hi]`, lies in `[n*lo, n*hi]` |
| Strings.SplitCount | handlers/user.py:106 | `s.split(c)` has one more piece than `s` has copies of `c` |
| Strings.PyInt | model/model.py:99 | `int()` of a non-empty run of ASCII digits is its decimal value |
| Strings.IntSkipsSpace | handlers/user.py:106 | `int()` skips its whitespace on both sides of a number |
| Strings.IntRejectsSeparator | model/model.py:99 | a number led by one of U+001C..U+001F is rejected, because `int()` does not skip those characters |
| Strings.StripSkipsSeparator | utils/dice_roller.py:19 | `strip()` does remove a leading U+001C..U+001F, so `int()`'s whitespace differs from `strip()`'s |
| Strings.Strip | utils/dice_roller.py:19 | `strip()` returns the middle of its input, drops only whitespace from both ends, ends on non-whitespace, and leaves an already stripped text as it is |
| Notation.MatchDice | utils/dice_roller.py:36-42 | a match consumes at least the three characters of `\d`, `d`, `\d` and no more than the text holds |
| Notation.MatchDiceMatches | utils/dice_roller.py:36-42 | a successful match consumes a prefix in the language `\d+d\d+` and stops before any further digit; count and sides are the decimal values of the two digit runs |
| Notation.MatchDiceComplete | utils/dice_roller.py:36 | whenever a prefix is in the language and is not followed by a digit, the match succeeds and consumes exactly that prefix |
| Notation.MatchDiceSound | utils/dice_roller.py:36-37 | when the match fails, no prefix of the text is in the language |
| Notation.FormatRoundTrip | handlers/user.py:109 | matching `f"{N}d{S}"` followed by anything that does not start with a digit gives back N and S and consumes the notation exactly |
| Notation.MatchDiceWhole | utils/dice_roller.py:36 | the prefix a match consumes is itself matched whole |
| DiceRoller.ExtractDiceLeftmost | utils/dice_roller.py:8-14 | if `{{roll:NdS}}` occurs anywhere, the search finds a match in the pattern's language that starts no later, and `extract_dice` returns its group |
| DiceRoller.ExtractDiceNone | utils/dice_roller.py:12-15 | with no occurrence of the pattern, `extract_dice` returns `None` |
| DiceRoller.FirstBraceLeftmost | utils/dice_roller.py:12 | no match starts before the one `re.search` returns, and there is none anywhere when it returns nothing |
| DiceRoller.BraceAtComplete | utils/dice_roller.py:8 | wherever the pattern's language occurs, the anchored match finds exactly that span |
| DiceRoller.CleanTextPlain | utils/dice_roller.py:17-19 | on a text without the pattern, `clean_text` only strips whitespace |
| DiceRoller.CleanTextFirst | utils/dice_roller.py:17-19 | otherwise it keeps what precedes the first match, drops the match, goes on with the substitution after it, and strips the result |
| DiceRoller.RemoveBracesFirst | utils/dice_roller.py:19 | the substitution keeps the text up to the first match, deletes the match, and resumes right after it |
| DiceRoller.RemoveBracesNone | utils/dice_roller.py:19 | where the pattern does not occur the substitution keeps the text |
| DiceRoller.Roll | utils/dice_roller.py:33-50 | without a leading notation the answer is `([], "[ошибка броска]")`; dice with zero sides and a positive count raise; otherwise the rolls are `count` draws, each in `[1, sides]` |
| DiceRoller.RollErrorIff | utils/dice_roller.py:36-38 | the error answer comes if and only if no prefix of the text is a notation |
| DiceRoller.RollTotalBounds | utils/dice_roller.py:44-48 | the total of N dice with S sides lies in `[N, N*S]` |
| DiceRoller.RollReadsPrefix | utils/dice_roller.py:36-48 | text after the notation, short of another digit, is ignored: `"2d6xyz"` rolls 2d6, and the result line is the one `roll` formats |
| DiceRoller.ResultTextShape | utils/dice_roller.py:47-48 | the result line starts `🎲 Ты бросил {dice}: ` and ends with `" = "` and the total, which reads back as the sum of the draws; with no draws it ends `": = 0"` |
| DiceRoller.RollStringsReadBack | utils/dice_roller.py:47-48 | each number in the result line reads back as its draw and holds no space of the `" + "` separator |
| DiceRoller.ExtractDice | utils/dice_roller.py:10-15 | whatever `extract_dice` returns, `roll`'s prefix match `(\d+)d(\d+)` accepts whole |
| DiceRoller.CleanText | utils/dice_roller.py:17-19 | the result is no longer than the input and neither starts nor ends with whitespace |
| DiceRoller.RollAcceptsNotation | utils/dice_roller.py:36-38 | a text that starts with a notation never gets the error answer |
| RollMarker.FirstMarker | handlers/user.py:85-89 | the marker found is the anchored match at its own start, no marker starts before it, and when none is found no marker starts anywhere |
| RollMarker.MatchAtSound | model/model.py:88 | what the anchored marker match finds starts with `[` and is in the marker language `\[roll:\d+d\d+\]` |
| RollMarker.MatchAtComplete | model/model.py:88 | wherever the marker language occurs, the anchored match finds exactly that span |
| RollMarker.FirstFromLeftmost | handlers/user.py:85-89 | no marker starts before the first one found, and there is none when none is found |
| RollMarker.NoBracketNoMarker | model/model.py:88 | a text without `[` holds no marker |
| RollMarker.MarkerShape | model/model.py:88 | inside a marker `[` only opens it, `]` only closes it, and every character is ASCII |
| RollMarker.MarkersDoNotOverlap | handlers/user.py:85 | two markers with different texts in one reply are disjoint |
| RollMarker.ReplacingMarkerConsumesIt | handlers/user.py:93 | replacing a marker's text by a note without brackets and with a non-ASCII character leaves no copy of that marker |
| RollMarker.OtherMarkerSurvives | model/model.py:102-105 | replacing every copy of one marker's text keeps every marker with a different text |
| RollMarker.MarkerRoundTrip | model/model.py:88-93 | the search finds a written-out `[roll:NdS]` with its N and S when no `[` precedes it |
| RollMarker.PendingFromLeftmost | app.py:95-102 | the pending roll is the dice of a marker before which no marker starts; with none pending no marker occurs; a written-out marker after text without `[` is what becomes pending |
| RollMarker.MarkerEndUnique | model/model.py:88 | two markers that start at the same place end at the same place |
| Chatbot.Chatbot.constructor | model/model.py:49 | a new game master has no session memory |
| Chatbot.Chatbot.GetSessionHistory | model/model.py:126-130 | the session's history is returned, created empty if it is new; afterwards the id is a key and no other entry changes |
| Chatbot.CallThroughHistory | model/model.py:108-121 | the chain sees the session's history; a reply is returned and remembered after its input; an exception becomes the error reply and the history stays; the session gains an entry and no other session changes |
| Chatbot.Chatbot.Invoke | model/model.py:108-111 | the chain gets the session's history; a reply is remembered together with its input; a raised exception becomes the error text and nothing is remembered |
| Chatbot.Chatbot.Interact | model/model.py:82-124 | the reply and the new session memory are those `Respond` gives for the input and roll |
| Chatbot.Decide | model/model.py:88-119 | the player is asked to roll exactly when a marker comes without a roll; `int()` fails exactly when a marker comes with a roll string it rejects, and that failure carries the error prefix; without a marker the input is forwarded verbatim with the roll `""`; with a marker the roll forwarded is exactly `str(int(roll))` |
| Chatbot.Respond | model/model.py:82-124 | an input that is not forwarded to the chain leaves every session's memory as it was |
| Chatbot.InvalidLiteral | model/model.py:99-124 | the `ValueError` text is the fixed head and then the quoted roll string cut to 200 characters, as `%.200R` does: a roll string of at most 198 characters appears whole, a longer one only as a prefix |
| Chatbot.MarkerWithoutRollAsks | model/model.py:88-97 | a marker without a roll is answered with `"🎲 Тебе нужно бросить NdS. Нажми на кнопку броска!"` and no memory changes |
| Chatbot.RollIgnoredWithoutMarker | model/model.py:115-121 | without a marker the chain is called on the input verbatim with the roll `""`, so the roll argument makes no difference |
| Chatbot.BadRollRejected | model/model.py:99-124 | a roll that `int()` rejects is reported with the error prefix and the `ValueError` text, and no memory changes |
| Chatbot.SeparatorRollRejected | model/model.py:99-124 | a roll string led by U+001C..U+001F is reported as a failure, because `int()` raises on it |
| Chatbot.RollSubstituted | model/model.py:99-109 | with a valid roll, every copy of the first marker's text is replaced by `(Бросок NdS: r)` and everything between the copies is kept; no copy remains; the chain gets the roll as exactly `str(r)`, which reads back as r |
| Chatbot.OtherMarkersForwarded | model/model.py:102-105 | markers with a text different from the first one reach the chain untouched |
| Chatbot.MemoryGrowsOnlyOnReply | model/model.py:108-121 | only the calling session's memory changes, and only by the forwarded input and the reply, exactly when the input is forwarded and the chain answers |
| Chatbot.FailuresReported | model/model.py:123-124 | every failure of the roll string or of the chain gives a reply starting with `"Произошла ошибка: "` and leaves the session's memory as it was |
| Chatbot.RollPromptHasNoMarker | model/model.py:97 | the request to roll holds no marker of its own |
| Chatbot.RollNoteShape | model/model.py:104 | the note `(Бросок NdS: r)` has no bracket and holds a non-ASCII letter |
| BotHandlers.HandleMessage | handlers/user.py:78-100 | the game master is asked in the sender's session without a roll, and the reply is rendered by the first-marker rule |
| BotHandlers.HandleRoll | handlers/user.py:103-143 | the payload is parsed and rolled; a crash changes nothing; otherwise the throw and the total are announced, the total goes to the game master in the user's session, and the continuation is rendered by the same rule |
| BotHandlers.Render | handlers/user.py:85-100 | a reply gets a button exactly when it holds a marker; without one it is sent unchanged; the button carries the first marker's dice as `roll_{count}d{sides}` |
| BotHandlers.RenderMarked | handlers/user.py:85-98 | the button asks for the first marker's dice; the shown text no longer holds that marker's text and is the reply's pieces joined by the waiting note |
| BotHandlers.RenderKeepsOtherMarkers | handlers/user.py:93 | other distinct markers stay in the shown text |
| BotHandlers.ParseCallback | handlers/user.py:105-106 | a payload that parses is, after lower-casing, two texts around a `d`, and `int()` reads them as the count and the sides |
| BotHandlers.PlanRoll | handlers/user.py:105-116 | a payload that does not parse crashes the handler, and a throw's total is the sum of its draws |
| BotHandlers.PayloadRoundTrip | handlers/user.py:105-106 | parsing the payload `roll_{c}d{s}` yields exactly `(c, s)`, and the roller gets their canonical notation |
| BotHandlers.SeparatorPayloadCrashes | handlers/user.py:105-106 | a payload whose count is led by U+001C..U+001F does not parse, so the handler crashes |
| BotHandlers.ButtonThrowsRequestedDice | handlers/user.py:105-116 | pressing the button for NdS throws NdS and reports a total in `[N, N*S]`, unless the dice have no sides |
| BotHandlers.SidelessButtonCrashes | handlers/user.py:109 | a button for dice with zero sides makes the handler raise before anything is sent |
| BotHandlers.ParsedPayloadHasOneD | handlers/user.py:106 | a payload that parses has exactly one `d` after lower-casing |
| BotHandlers.NegativeRequestTotalsZero | handlers/user.py:106-116 | a negative number in the payload gives the roller no notation, so nothing is drawn and the total is 0 |
| BotHandlers.NegativeNotationRejected | handlers/user.py:109 | `f"{num}d{sides}"` with a negative number is no notation |
| BotHandlers.ContinuationIsPlain | handlers/user.py:119-122 | the total handed back holds no marker, so `interact` forwards it as it is with an empty roll |
| BotHandlers.LowerFormat | handlers/user.py:106 | lower-casing leaves the canonical notation alone |
| StatsScrape.ScrapeStats | app.py:19-27 | a reply without `HP:` keeps the hit points and their maximum, and a reply without `Gold Coins:` keeps the gold |
| StatsScrape.StatsRoundTrip | app.py:19-27 | a reply of the form text, `HP: a / b`, text, `Gold Coins: g`, text sets the sheet to exactly `(a, b, g)` over any prior sheet. The conditions are: no HP match starts before the HP line, no gold match starts before the gold line, and no digit follows either number |
| StatsScrape.HpRoundTrip | app.py:19-22 | when no HP match starts before `HP: a / b` and no digit follows it, the search gives `a` and `b` |
| StatsScrape.GoldRoundTrip | app.py:25-27 | when no gold match starts before `Gold Coins: g` and no digit follows it, the search gives `g` |
| StatsScrape.FirstGroupsCanonical | app.py:19-27 | the canonical text of a pattern, after text in which no match starts and before text the last group cannot absorb, yields exactly its group texts |
| StatsScrape.NoMatchBeforeLead | app.py:19-25 | no match starts inside text that lacks the pattern's first literal character |
| StatsScrape.SearchLeftmost | app.py:19 | no match starts before the one `re.search` finds, and none exists when it finds nothing |
| StatsScrape.SearchFinds | app.py:25 | the search stops at the first position where the pattern matches |
| StatsScrape.ScanShape | app.py:19-21 | a match leaves no more text than it was given and captures one text per group |
| StatsScrape.FirstGroups | app.py:19-27 | the groups of the leftmost match, one per group of the pattern, each a digit run |
| WebApp.WebSession.constructor | app.py:33-43 | a fresh session has hp 100, max hp 100, gold 50, no pending roll, no parsed stats, no messages and no character |
| WebApp.WebSession.UpdateStatsFromResponse | app.py:12-29 | once stats are parsed nothing changes; otherwise the sheet becomes the scrape of the reply over the old sheet and the flag is set, whether or not a pattern matched |
| WebApp.WebSession.AcceptReply | app.py:89-102 | the reply is logged, the stats update runs, and the pending roll becomes the reply's first marker or none |
| WebApp.WebSession.StartAdventure | app.py:73-107 | with a field empty only a warning is given; otherwise the character is created and the narrator's opening is the only message; the session invariant holds afterwards |
| WebApp.WebSession.RollDice | app.py:115-144 | dice without sides raise before anything changes; otherwise the total lies in `[N, N*S]`, and `"Rolled NdS → r"` and the answer are appended; the sheet and the invariant are kept |
| WebApp.WebSession.SendMessage | app.py:147-169 | an empty input does nothing; any other input and its answer are appended, the answer decides the pending roll, and the sheet and the invariant are kept |
| WebApp.WebSession.PlayerTurn | app.py:150-169 | the input and the narrator's answer are appended, the chat memory is what `Respond` gives, and the sheet, the character and the invariant are kept |
| WebApp.OpeningLog | app.py:89-104 | the opening reply starts a consistent log: its first marker is pending and the sheet is scraped from it |
| WebApp.ExtendLog | app.py:121-142 | a player message and its answer keep the log alternating; the answer decides the pending roll and the sheet stays as the first reply left it |
| WebApp.RollInputIsPlain | app.py:119-127 | the roll message holds no marker, so the game master forwards it as it is |
| WebApp.RollButtonTotal | app.py:118 | the roll button's total lies in `[N, N*S]` |

## Left out

- Reply type: `app.py` reads the narrator's reply as `response_data["text"]` (app.py:16, 90, 130, 157), but `interact` returns a plain string (model/model.py:97, 113, 121, 124). The model takes the reply as that string and does not model the `TypeError` that indexing a string by `"text"` would raise.
- The language model, prompt template, `RunnableWithMessageHistory` and `InMemoryChatMessageHistory` are foreign code. The chain is a function parameter from (history, input, roll) to a reply or an exception message. The memory is a map from session id to a list of human and AI turns. The system prompt is configuration and is not modelled.
- `random.randint` becomes a given sequence of draws of the right length and range; nothing is said about their distribution.
- Streamlit rendering is not modelled, including `st.progress(hp / max_hp)` (a floating-point display value), spinners and `st.rerun`. The same goes for the aiogram I/O: chat actions, photos, replies and `callback.answer()`. Only the texts the handlers compute are modelled.
- The static texts of `start`, `show_about_bot` and `start_game` are not modelled.
- `keyboards/kb.py` keyboards and `DiceRoller.build_button` are not part of this model. Only the payload format `roll_{count}d{sides}` (keyboards/kb.py:24) is.
- Async and concurrency are not modelled. Each handler is one sequential turn, and two Telegram users sharing the game master are not interleaved.
- Telegram messages without text (`message.text` is `None`) are not modelled.
- `\d`, `int()` and `str.lower()` are modelled on ASCII. Python also accepts other Unicode decimal digits and lower-cases non-ASCII letters. `\s` and `strip()` use Python's whitespace table exactly. `int()` skips that table less U+001C..U+001F, as CPython does.
- Strings.PyInt, Strings.DigitsValue: CPython's limit of 4300 digits on `int()` of a string is not modelled, at any `int()` site. Those sites are:
  - the roll string (model/model.py:99);
  - the button payload (handlers/user.py:106);
  - the marker groups (model/model.py:92-93, handlers/user.py:90 and 130, app.py:98-99, 138-139 and 165-166);
  - the stat groups (app.py:21-27).

  Past the limit the code raises a `ValueError`. In `interact` (model/model.py:92-99) that becomes the error reply. In the handlers and the web page it escapes. The model reads the number instead.
- Chatbot.InvalidLiteral: the quoted roll string is cut to 200 characters, as `%.200R` does, but the quoting is always plain single quotes. The model does not capture how Python's `repr` quotes and escapes a roll string that itself holds quotes or escape characters.
- StatsScrape.Found: a match is recorded by how much text follows it and by its group texts, not by the positions Python's match object reports.
- Regular expressions are modelled only for the four patterns the code uses, not as a general engine.
- Exceptions inside the web handlers (an `int()` or `randint` failure) are modelled only for the roll button's zero-sided dice. Apart from that and the 4300-digit limit above, the modelled operations cannot fail in the other branches.
- StatsScrape.HpRoundTrip: proved only for the canonical line `HP: a / b` with single spaces. The scanner accepts the other whitespace that `\s*` allows, but no round-trip lemma covers it.
- StatsScrape.GoldRoundTrip: proved only for the canonical line `Gold Coins: g` with one space. The same gap applies.
- StatsScrape.StatsRoundTrip: proved only for a reply whose two status lines are canonical, as in the two lemmas above.

### Behaviour of the code worth knowing

The model captures each of these facts about the code:

- The stats scrape runs once per session.
  - `update_stats_from_response` returns at once when `stats_parsed` is set
    (app.py:13-14).
  - It sets the flag after every scrape, matched or not (app.py:29).
  - So only the narrator's first reply can set hit points and gold, and later status
    lines are ignored.
- The chat input is handled even while a roll is pending (app.py:147-169).
  - The new reply's first marker, or none, replaces the pending roll (app.py:162-169).
  - The waiting roll is dropped.
- Neither front end passes a roll to `interact`.
  - The Telegram handler hands back `f"На кубике выпало: {sum(rolls)}"`
    (handlers/user.py:119-122).
  - The web page hands back `f"Rolled {N}d{S} → {r}"` (app.py:119-127).
  - Neither holds a marker, so `interact` forwards both with an empty roll
    (`BotHandlers.ContinuationIsPlain`, `WebApp.RollInputIsPlain`).
  - Its roll branch (model/model.py:99-113) is never used.
- A Telegram roll button carries only its dice (keyboards/kb.py:24).
  - `handle_roll` reads nothing but that payload (handlers/user.py:103-106).
  - Pressing an old button rolls its dice again.

=== FILE: bot_handlers.dfy ===
/** The Telegram front end: a text message goes to the shared game master under the
    sender's id, and a reply carrying a roll marker is shown with the marker replaced by
    a waiting note and a button whose payload names the dice; pressing the button rolls
    them, reports the total and hands it back to the game master. */
module BotHandlers {
  import opened Strings
  import opened Notation
  import opened RollMarker
  import opened DiceRoller
  import opened Chatbot

  /** One message sent to the chat, with the callback payload of its roll button, if any. */
  datatype Outgoing = Outgoing(text: string, button: Option<string>)

  /** The note that stands where the marker was while the roll is awaited. */
  const WaitingText: string := "🎲 Ждём броска кубика..."

  /** The button's callback payload `f"roll_{count}d{sides}"`. */
  function Payload(d: Dice): string {
    "roll_" + Format(d)
  }

  /** The session key of a Telegram user: `str(user_id)`. */
  function SessionKey(userId: int): string {
    IntToString(userId)
  }

  /** How a game-master reply is shown: the first marker's text, wherever it occurs, gives
      way to the waiting note and a roll button for that marker's dice; a reply without
      a marker is sent as it is. */
  function Render(reply: string): (out: Outgoing)
    ensures out.button.None? <==> FirstMarker(reply).None?
    ensures out.button.None? ==> out.text == reply
    ensures out.button.Some? ==> out.button.value == Payload(FirstMarker(reply).value.dice)
  {
    match FirstMarker(reply)
    case None => Outgoing(reply, None)
    case Some(m) => Outgoing(ReplaceAll(reply, MarkerText(reply, m), WaitingText), Some(Payload(m.dice)))
  }

  /** The two numbers a button payload carries. */
  datatype Request = Request(num: int, sides: int)

  /** `map(int, data[len("roll_"):].lower().split("d"))` unpacked into two names; `None`
      where that raises. A payload that parses is, once lower-cased, the two numbers'
      texts around a `d`. */
  function ParseCallback(data: string): (r: Option<Request>)
    requires "roll_" <= data
    ensures r.Some? ==> exists a, b :: Lower(data[5..]) == a + "d" + b
                                      && PyInt(a) == Some(r.value.num) && PyInt(b) == Some(r.value.sides)
  {
    var x := Lower(data[5..]);
    var parts := Split(x, "d");
    if |parts| != 2 then None
    else
      match (PyInt(parts[0]), PyInt(parts[1]))
      case (Some(n), Some(s)) =>
        SplitTwo(x, "d");
        Some(Request(n, s))
      case _ => None
  }

  /** The notation handed to the roller, `f"{num}d{sides}"`. */
  function CallbackNotation(r: Request): string {
    IntToString(r.num) + "d" + IntToString(r.sides)
  }

  function ThrowingText(notation: string): string {
    "🎲 Бросаю кубик " + notation + "..."
  }

  function TotalText(total: int): string {
    "🎲 На кубике выпало: " + IntToString(total)
  }

  /** What the player's side of the conversation says after a roll. */
  function ContinuationText(total: int): string {
    "На кубике выпало: " + IntToString(total)
  }

  /** What a press of a roll button comes to before the game master is asked: the
      handler stops with an exception, or it rolls and has a notation and a total. */
  datatype RollPlan = Crash | Throw(notation: string, total: int)

  /** The draws fit the roll a payload asks for. */
  predicate DrawsFitPayload(data: string, draws: seq<int>)
    requires "roll_" <= data
  {
    ParseCallback(data).Some? ==> DrawsFit(CallbackNotation(ParseCallback(data).value), draws)
  }

  /** A payload that does not parse crashes the handler; a throw totals the draws. */
  function PlanRoll(data: string, draws: seq<int>): (r: RollPlan)
    requires "roll_" <= data && DrawsFitPayload(data, draws)
    ensures ParseCallback(data).None? ==> r == Crash
    ensures r.Throw? ==> r.total == Sum(draws)
  {
    match ParseCallback(data)
    case None => Crash
    case Some(r) =>
      match Roll(CallbackNotation(r), draws)
      case RandintRaised => Crash
      case Rolled(rolls, _) =>
        assert rolls == draws by {
          if MatchDice(CallbackNotation(r)).None? {
            assert draws == [];
          }
        }
        Throw(CallbackNotation(r), Sum(rolls))
  }

  /** The outcome of one button press. */
  datatype RollTurn = Crashed | Answered(messages: seq<Outgoing>)

  /** `handle_message`: ask the shared game master, without a roll, in the sender's
      session, and show the reply. */
  method HandleMessage(bot: Chatbot, userId: int, text: string) returns (out: Outgoing)
    modifies bot
    ensures var x := Respond(bot.chain, old(bot.chatHistories), SessionKey(userId), text, None);
      out == Render(x.reply) && bot.chatHistories == x.histories
  {
    var reply := bot.Interact(text, SessionKey(userId), None);
    var found := FirstMarker(reply);
    if found.Some? {
      var m := found.value;
      out := Outgoing(ReplaceAll(reply, MarkerText(reply, m), WaitingText), Some(Payload(m.dice)));
    } else {
      out := Outgoing(reply, None);
    }
  }

  /** `handle_roll` for a payload starting with `roll_`, given what `randint` draws:
      parse, roll, announce the throw and its total, then tell the game master the
      total and show its continuation. */
  method HandleRoll(bot: Chatbot, userId: int, data: string, draws: seq<int>) returns (turn: RollTurn)
    requires "roll_" <= data && DrawsFitPayload(data, draws)
    modifies bot
    ensures match PlanRoll(data, draws)
      case Crash => turn == Crashed && bot.chatHistories == old(bot.chatHistories)
      case Throw(n, t) =>
        var x := Respond(bot.chain, old(bot.chatHistories), SessionKey(userId), ContinuationText(t), None);
        && turn == Answered([Outgoing(ThrowingText(n), None), Outgoing(TotalText(t), None), Render(x.reply)])
        && bot.chatHistories == x.histories
  {
    var request := ParseCallback(data);
    if request.None? {
      return Crashed;
    }
    var notation := CallbackNotation(request.value);
    var outcome := Roll(notation, draws);
    if outcome.RandintRaised? {
      return Crashed;
    }
    var total := Sum(outcome.rolls);
    var first := Outgoing(ThrowingText(notation), None);
    var second := Outgoing(TotalText(total), None);
    var continuation := bot.Interact(ContinuationText(total), SessionKey(userId), None);
    var third := Render(continuation);
    turn := Answered([first, second, third]);
  }

  /** The waiting note cannot begin or end a marker and starts with a non-ASCII character. */
  lemma WaitingTextShape()
    ensures '[' !in WaitingText && ']' !in WaitingText && WaitingText[0] >= '\U{80}'
  {
  }

  /** A shown reply no longer holds the first marker's text, everything around its copies
      is kept, and the button asks for exactly the dice the marker named. */
  lemma RenderMarked(reply: string)
    requires FirstMarker(reply).Some?
    ensures var m := FirstMarker(reply).value;
      var t := MarkerText(reply, m);
      var out := Render(reply);
      && out.button == Some(Payload(m.dice))
      && !Contains(out.text, t)
      && reply == Join(Split(reply, t), t)
      && out.text == Join(Split(reply, t), WaitingText)
  {
    var m := FirstMarker(reply).value;
    var t := MarkerText(reply, m);
    MatchAtSound(reply, m.start);
    WaitingTextShape();
    ReplacingMarkerConsumesIt(reply, t, WaitingText, 0);
    SplitJoinRestores(reply, t);
    ReplaceAllIsSplitJoin(reply, t, WaitingText);
  }

  /** Only the first marker's text is replaced: any other marker stays in the shown text
      (its roll gets no button). */
  lemma RenderKeepsOtherMarkers(reply: string, q: nat, e: nat)
    requires FirstMarker(reply).Some?
    requires q <= e <= |reply| && IsMarkerText(reply[q..e])
    requires reply[q..e] != MarkerText(reply, FirstMarker(reply).value)
    ensures Contains(Render(reply).text, reply[q..e])
  {
    var m := FirstMarker(reply).value;
    MatchAtSound(reply, m.start);
    OtherMarkerSurvives(reply, MarkerText(reply, m), WaitingText, q, e);
  }

  /** Lower-casing leaves the canonical notation alone. */
  lemma LowerFormat(d: Dice)
    ensures Lower(Format(d)) == Format(d)
  {
    FormatChars(d);
  }

  /** The payload of a button reads back as the dice it was made for, and the roller is
      handed their canonical notation. */
  lemma PayloadRoundTrip(d: Dice)
    ensures ParseCallback(Payload(d)) == Some(Request(d.count, d.sides))
    ensures CallbackNotation(Request(d.count, d.sides)) == Format(d)
  {
    var c := NatToString(d.count);
    var s := NatToString(d.sides);
    assert Payload(d)[5..] == Format(d) == c + ['d'] + s;
    LowerFormat(d);
    assert 'd' !in c && 'd' !in s;
    SplitOnce(c, 'd', s);
    IntRoundTrip(d.count);
    IntRoundTrip(d.sides);
  }
  /** A payload whose count is led by one of the separators U+001C..U+001F does not
      parse, because `int()` raises on that piece, so the handler crashes. */
  lemma SeparatorPayloadCrashes(ch: char, d: Dice)
    requires '\U{1C}' <= ch <= '\U{1F}'
    ensures ParseCallback("roll_" + [ch] + Format(d)).None?
    ensures PlanRoll("roll_" + [ch] + Format(d), []) == Crash
  {
    var c := NatToString(d.count);
    var s := NatToString(d.sides);
    var data := "roll_" + [ch] + Format(d);
    assert data[5..] == ([ch] + c) + ['d'] + s;
    LowerFormat(d);
    assert Lower(data[5..]) == data[5..];
    assert 'd' !in [ch] + c && 'd' !in s;
    SplitOnce([ch] + c, 'd', s);
    IntRejectsSeparator(ch, d.count);
  }


  /** Pressing the button made for `d` throws exactly `d`: the announced notation is
      `d`'s and the total lies between `count` and `count * sides`; only dice with no
      sides crash the handler. */
  lemma ButtonThrowsRequestedDice(d: Dice, draws: seq<int>)
    requires !(d.count > 0 && d.sides == 0)
    requires |draws| == d.count && forall k :: 0 <= k < |draws| ==> 1 <= draws[k] <= d.sides
    ensures DrawsFitPayload(Payload(d), draws)
    ensures PlanRoll(Payload(d), draws) == Throw(Format(d), Sum(draws))
    ensures d.count <= Sum(draws) <= d.count * d.sides
  {
    PayloadRoundTrip(d);
    FormattedRolls(d, draws);
    PlanRollParts(Payload(d), Request(d.count, d.sides), draws);
    SumBounds(draws, 1, d.sides);
  }

  /** The roller's answer for the canonical notation itself. */
  lemma FormattedRolls(d: Dice, draws: seq<int>)
    requires !(d.count > 0 && d.sides == 0)
    requires |draws| == d.count && forall k :: 0 <= k < |draws| ==> 1 <= draws[k] <= d.sides
    ensures DrawsFit(Format(d), draws) && Roll(Format(d), draws).Rolled?
    ensures Roll(Format(d), draws).rolls == draws
  {
    var f := Format(d);
    assert f + [] == f;
    FormatRoundTrip(d, []);
  }

  /** `PlanRoll` once the payload is parsed: the general statement of its crash and
      throw paths, which its own contract leaves out. */
  lemma PlanRollParts(data: string, r: Request, draws: seq<int>)
    requires "roll_" <= data && ParseCallback(data) == Some(r)
    requires DrawsFit(CallbackNotation(r), draws)
    ensures DrawsFitPayload(data, draws)
    ensures Roll(CallbackNotation(r), draws).RandintRaised? ==> PlanRoll(data, draws) == Crash
    ensures Roll(CallbackNotation(r), draws).Rolled? ==>
      PlanRoll(data, draws) == Throw(CallbackNotation(r), Sum(Roll(CallbackNotation(r), draws).rolls))
  {
  }

  /** A button for dice without sides crashes the handler before anything is sent. */
  lemma SidelessButtonCrashes(d: Dice)
    requires d.count > 0 && d.sides == 0
    ensures DrawsFitPayload(Payload(d), [])
    ensures PlanRoll(Payload(d), []) == Crash
  {
    PayloadRoundTrip(d);
    var f := Format(d);
    assert f + [] == f;
    FormatRoundTrip(d, []);
    PlanRollParts(Payload(d), Request(d.count, d.sides), []);
  }

  /** A payload that parses names exactly one `d` once lower-cased. */
  lemma ParsedPayloadHasOneD(data: string)
    requires "roll_" <= data && ParseCallback(data).Some?
    ensures CountChar(Lower(data[5..]), 'd') == 1
  {
    SplitCount(Lower(data[5..]), 'd');
  }

  /** A negative number in a payload sends the roller a string that does not start with
      the notation: nothing is drawn and the reported total is 0. */
  lemma NegativeRequestTotalsZero(data: string)
    requires "roll_" <= data && ParseCallback(data).Some?
    requires ParseCallback(data).value.num < 0 || ParseCallback(data).value.sides < 0
    ensures DrawsFitPayload(data, [])
    ensures PlanRoll(data, []) == Throw(CallbackNotation(ParseCallback(data).value), 0)
  {
    var r := ParseCallback(data).value;
    NegativeNotationRejected(r);
    PlanRollParts(data, r, []);
  }

  /** `f"{num}d{sides}"` with a negative number is no notation. */
  lemma NegativeNotationRejected(r: Request)
    requires r.num < 0 || r.sides < 0
    ensures MatchDice(CallbackNotation(r)).None?
  {
    var t := CallbackNotation(r);
    if r.num < 0 {
      assert t[0] == '-';
      assert DigitRun(t, 0) == 0;
    } else {
      var c := IntToString(r.num);
      assert AllDigits(c);
      assert forall k :: 0 <= k < |c| ==> t[k] == c[k];
      DigitRunIs(t, 0, |c|);
      assert t[|c|] == 'd' && t[|c| + 1] == '-';
      assert DigitRun(t, |c| + 1) == 0;
    }
  }

  /** The total handed back to the game master holds no marker, so it is forwarded as
      it is, with an empty roll. */
  lemma ContinuationIsPlain(total: int)
    ensures FirstMarker(ContinuationText(total)).None?
    ensures Decide(ContinuationText(total), None) == Forward(ContinuationText(total), "")
  {
    var i := IntToString(total);
    assert '[' !in i by {
      if total >= 0 { assert AllDigits(i); }
    }
    NoBracketNoMarker(ContinuationText(total));
  }
}

=== FILE: chatbot.dfy ===
/** The game master: one language-model chain shared by every player, the per-session
    conversation memory it reads and extends, and the roll protocol wrapped around it.
    A `[roll:NdS]` marker in the player's input either turns into a request to roll
    (when no roll is supplied) or is replaced by the roll's value before the model
    sees the input. */
module Chatbot {
  import opened Strings
  import opened Notation
  import opened RollMarker

  /** One remembered message of a session. */
  datatype Turn = Human(text: string) | Ai(text: string)

  /** What one call of the language-model chain produces: the reply, or the message of
      the exception it raised. */
  datatype ChainResult = Replied(reply: string) | Raised(message: string)

  /** The chain as the game master calls it: the session's history so far, the player
      input and the roll string it is handed. The model is a parameter, not modelled. */
  type Chain = (seq<Turn>, string, string) -> ChainResult

  /** Every failure inside `interact` comes back as this prefix and the error's text. */
  const ErrorPrefix: string := "Произошла ошибка: "

  /** The request to roll that replaces the model's answer when a marker arrives without
      a roll. */
  function RollPrompt(d: Dice): string {
    "🎲 Тебе нужно бросить " + Format(d) + ". Нажми на кнопку броска!"
  }

  /** The note that replaces a marker once the roll `v` is known. */
  function RollNote(d: Dice, v: int): string {
    "(Бросок " + Format(d) + ": " + IntToString(v) + ")"
  }

  /** How the `ValueError` of `int()` begins. */
  const InvalidLiteralHead: string := "invalid literal for int() with base 10: "

  /** The text of the `ValueError` that `int(r)` raises on a string that is not an
      integer: the head, then the string in quotes, cut to 200 characters. */
  function InvalidLiteral(r: string): (m: string)
    ensures InvalidLiteralHead <= m && |m| <= |InvalidLiteralHead| + 200
    ensures m[|InvalidLiteralHead|..] <= "'" + r + "'"
    ensures |r| <= 198 <==> m == InvalidLiteralHead + "'" + r + "'"
  {
    var quoted := "'" + r + "'";
    InvalidLiteralHead + (if |quoted| <= 200 then quoted else quoted[..200])
  }

  /** What `interact` does with one input before any call of the chain. */
  datatype Decision =
    | AskToRoll(prompt: string)
    | Fail(message: string)
    | Forward(input: string, roll: string)

  /** The model is asked to roll exactly when a marker comes without a roll, and `int()`
      fails exactly when a marker comes with a roll that is no integer. Without a marker
      the input goes to the model as it is, with an empty roll; with one, the roll goes
      as `str()` of the integer read, which reads back as the roll that was given. */
  function Decide(playerInput: string, roll: Option<string>): (r: Decision)
    ensures r.AskToRoll? <==> FirstMarker(playerInput).Some? && roll.None?
    ensures r.Fail? <==> FirstMarker(playerInput).Some? && roll.Some? && PyInt(roll.value).None?
    ensures r.Fail? ==> ErrorPrefix <= r.message
    ensures FirstMarker(playerInput).None? ==> r == Forward(playerInput, "")
    ensures r.Forward? && FirstMarker(playerInput).Some? ==>
      roll.Some? && PyInt(roll.value).Some? && r.roll == IntToString(PyInt(roll.value).value)
    ensures r.Forward? && r.roll != "" ==> roll.Some? && PyInt(r.roll) == PyInt(roll.value)
  {
    match FirstMarker(playerInput)
    case None => Forward(playerInput, "")
    case Some(m) =>
      if roll.None? then AskToRoll(RollPrompt(m.dice))
      else
        match PyInt(roll.value)
        case None => Fail(ErrorPrefix + InvalidLiteral(roll.value))
        case Some(v) =>
          IntRoundTrip(v);
          Forward(ReplaceAll(playerInput, MarkerText(playerInput, m), RollNote(m.dice, v)),
                  IntToString(v))
  }

  /** The reply of one `interact` call and the session memory after it. */
  datatype Exchange = Exchange(reply: string, histories: map<string, seq<Turn>>)

  /** A session's history, empty for a session never seen. */
  function HistoryOf(histories: map<string, seq<Turn>>, sessionId: string): seq<Turn> {
    if sessionId in histories then histories[sessionId] else []
  }

  /** One call of the chain through the message-history wrapper, on values: the
      session's history is fetched (and created), and a successful call records the
      input it was given and the reply. */
  function Call(chain: Chain, histories: map<string, seq<Turn>>, sessionId: string,
                input: string, roll: string): Exchange
  {
    var h := HistoryOf(histories, sessionId);
    match chain(h, input, roll)
    case Replied(x) => Exchange(x, histories[sessionId := h + [Human(input), Ai(x)]])
    case Raised(e) => Exchange(ErrorPrefix + e, histories[sessionId := h])
  }
  /** One chain call through the history wrapper: the chain sees the session's
      history; a reply is returned and remembered after its input; an exception becomes
      the error reply and the history stays as it was. The session now has an entry, and
      no other session's memory changes. */
  lemma CallThroughHistory(chain: Chain, histories: map<string, seq<Turn>>, sessionId: string,
                           input: string, roll: string)
    ensures var h := HistoryOf(histories, sessionId);
      var c := chain(h, input, roll);
      var x := Call(chain, histories, sessionId, input, roll);
      && sessionId in x.histories
      && (forall k :: k != sessionId ==> HistoryOf(x.histories, k) == HistoryOf(histories, k))
      && (c.Replied? ==> x.reply == c.reply && x.histories[sessionId] == h + [Human(input), Ai(c.reply)])
      && (c.Raised? ==> x.reply == ErrorPrefix + c.message && x.histories[sessionId] == h)
  {
  }


  /** `interact` on values: the chain is called only when the input is forwarded, so
      an input that is not forwarded leaves every memory as it was. */
  function Respond(chain: Chain, histories: map<string, seq<Turn>>, sessionId: string,
                   playerInput: string, roll: Option<string>): (r: Exchange)
    ensures !Decide(playerInput, roll).Forward? ==> r.histories == histories
  {
    match Decide(playerInput, roll)
    case AskToRoll(p) => Exchange(p, histories)
    case Fail(e) => Exchange(e, histories)
    case Forward(inp, r) => Call(chain, histories, sessionId, inp, r)
  }

  class Chatbot {
    const chain: Chain
    /** `chat_histories`: session id to that session's remembered messages. */
    var chatHistories: map<string, seq<Turn>>

    constructor(chain: Chain)
      ensures this.chain == chain && chatHistories == map[]
    {
      this.chain := chain;
      chatHistories := map[];
    }

    /** `get_session_history`: the session's history, created empty on first use. */
    method GetSessionHistory(sessionId: string) returns (h: seq<Turn>)
      modifies this
      ensures h == HistoryOf(old(chatHistories), sessionId)
      ensures chatHistories == old(chatHistories)[sessionId := h]
    {
      if sessionId !in chatHistories {
        chatHistories := chatHistories[sessionId := []];
      }
      h := chatHistories[sessionId];
    }

    /** `chain.invoke` through the message-history wrapper: fetch the history, call the
        chain, and on success remember the input and the reply. An exception becomes the
        error reply. */
    method Invoke(input: string, roll: string, sessionId: string) returns (reply: string)
      modifies this
      ensures reply == Call(chain, old(chatHistories), sessionId, input, roll).reply
      ensures chatHistories == Call(chain, old(chatHistories), sessionId, input, roll).histories
    {
      var h := GetSessionHistory(sessionId);
      match chain(h, input, roll)
      case Replied(x) =>
        chatHistories := chatHistories[sessionId := h + [Human(input), Ai(x)]];
        reply := x;
      case Raised(e) =>
        reply := ErrorPrefix + e;
    }

    /** `interact(player_input, session_id, roll)`. */
    method Interact(playerInput: string, sessionId: string, roll: Option<string>)
      returns (reply: string)
      modifies this
      ensures reply == Respond(chain, old(chatHistories), sessionId, playerInput, roll).reply
      ensures chatHistories == Respond(chain, old(chatHistories), sessionId, playerInput, roll).histories
    {
      var found := FirstMarker(playerInput);
      if found.Some? {
        var m := found.value;
        if roll.None? {
          assert Decide(playerInput, roll) == AskToRoll(RollPrompt(m.dice));
          return RollPrompt(m.dice);
        }
        var v := PyInt(roll.value);
        if v.None? {
          assert Decide(playerInput, roll) == Fail(ErrorPrefix + InvalidLiteral(roll.value));
          return ErrorPrefix + InvalidLiteral(roll.value);
        }
        var modified := ReplaceAll(playerInput, MarkerText(playerInput, m), RollNote(m.dice, v.value));
        assert Decide(playerInput, roll) == Forward(modified, IntToString(v.value));
        reply := Invoke(modified, IntToString(v.value), sessionId);
      } else {
        assert Decide(playerInput, roll) == Forward(playerInput, "");
        reply := Invoke(playerInput, "", sessionId);
      }
    }
  }

  /** The request to roll holds no marker of its own, so showing it asks for nothing more. */
  lemma RollPromptHasNoMarker(d: Dice)
    ensures FirstMarker(RollPrompt(d)).None?
  {
    FormatChars(d);
    var f := Format(d);
    assert '[' !in f;
    assert RollPrompt(d) == "🎲 Тебе нужно бросить " + f + ". Нажми на кнопку броска!";
    NoBracketNoMarker(RollPrompt(d));
  }

  /** A marker without a roll is answered with the request to roll: the model is not
      called and no session memory changes. */
  lemma MarkerWithoutRollAsks(chain: Chain, histories: map<string, seq<Turn>>,
                              sessionId: string, playerInput: string)
    requires FirstMarker(playerInput).Some?
    ensures Respond(chain, histories, sessionId, playerInput, None)
         == Exchange(RollPrompt(FirstMarker(playerInput).value.dice), histories)
  {
  }

  /** Without a marker the input goes to the model as it is, with an empty roll, so the
      roll argument makes no difference. */
  lemma RollIgnoredWithoutMarker(chain: Chain, histories: map<string, seq<Turn>>,
                                 sessionId: string, playerInput: string, roll: Option<string>)
    requires FirstMarker(playerInput).None?
    ensures Respond(chain, histories, sessionId, playerInput, roll)
         == Call(chain, histories, sessionId, playerInput, "")
    ensures Respond(chain, histories, sessionId, playerInput, roll)
         == Respond(chain, histories, sessionId, playerInput, None)
  {
  }

  /** A roll that is not an integer is reported, the model is not called and no
      session memory changes. */
  lemma BadRollRejected(chain: Chain, histories: map<string, seq<Turn>>,
                        sessionId: string, playerInput: string, roll: string)
    requires FirstMarker(playerInput).Some? && PyInt(roll).None?
    ensures Respond(chain, histories, sessionId, playerInput, Some(roll))
         == Exchange(ErrorPrefix + InvalidLiteral(roll), histories)
  {
  }
  /** A roll string led by one of the separators U+001C..U+001F is reported as a
      failure, since `int()` does not skip those characters. */
  lemma SeparatorRollRejected(playerInput: string, c: char, i: int)
    requires FirstMarker(playerInput).Some? && '\U{1C}' <= c <= '\U{1F}'
    ensures Decide(playerInput, Some([c] + IntToString(i))).Fail?
  {
    IntRejectsSeparator(c, i);
  }


  /** The note cannot begin or end a marker and holds a non-ASCII letter, which no
      marker does. */
  lemma RollNoteShape(d: Dice, v: int)
    ensures '[' !in RollNote(d, v) && ']' !in RollNote(d, v)
    ensures RollNote(d, v)[1] >= '\U{80}'
  {
    FormatChars(d);
    IntToStringChars(v);
    var f := Format(d);
    var i := IntToString(v);
    assert '[' !in f && ']' !in f;
    assert '[' !in i && ']' !in i;
    assert RollNote(d, v) == "(Бросок " + f + ": " + i + ")";
  }

  /** With a valid roll, every copy of the found marker's text is replaced by the
      note, the model receives the roll as a canonical integer string, and everything
      between the copies reaches the model unchanged. */
  lemma RollSubstituted(playerInput: string, roll: string)
    requires FirstMarker(playerInput).Some? && PyInt(roll).Some?
    ensures var m := FirstMarker(playerInput).value;
      var t := MarkerText(playerInput, m);
      var v := PyInt(roll).value;
      var pieces := Split(playerInput, t);
      && Decide(playerInput, Some(roll)).Forward?
      && var inp := Decide(playerInput, Some(roll)).input;
      && playerInput == Join(pieces, t)
      && inp == Join(pieces, RollNote(m.dice, v))
      && !Contains(inp, t)
      && Decide(playerInput, Some(roll)).roll == IntToString(v)
      && PyInt(Decide(playerInput, Some(roll)).roll) == Some(v)
  {
    var m := FirstMarker(playerInput).value;
    var t := MarkerText(playerInput, m);
    var v := PyInt(roll).value;
    var rep := RollNote(m.dice, v);
    MatchAtSound(playerInput, m.start);
    SplitJoinRestores(playerInput, t);
    ReplaceAllIsSplitJoin(playerInput, t, rep);
    RollNoteShape(m.dice, v);
    ReplacingMarkerConsumesIt(playerInput, t, rep, 1);
    IntRoundTrip(v);
  }

  /** Any other marker in the input (a different notation or spelling) reaches the
      model untouched. */
  lemma OtherMarkersForwarded(playerInput: string, roll: string, q: nat, e: nat)
    requires FirstMarker(playerInput).Some? && PyInt(roll).Some?
    requires q <= e <= |playerInput| && IsMarkerText(playerInput[q..e])
    requires playerInput[q..e] != MarkerText(playerInput, FirstMarker(playerInput).value)
    ensures Decide(playerInput, Some(roll)).Forward?
    ensures Contains(Decide(playerInput, Some(roll)).input, playerInput[q..e])
  {
    var m := FirstMarker(playerInput).value;
    MatchAtSound(playerInput, m.start);
    OtherMarkerSurvives(playerInput, MarkerText(playerInput, m),
                        RollNote(m.dice, PyInt(roll).value), q, e);
  }

  /** Session memory only ever grows at the end of the calling session, by exactly the
      forwarded input and the model's reply, and only when the model answered; every
      other session is left as it was. */
  lemma MemoryGrowsOnlyOnReply(chain: Chain, histories: map<string, seq<Turn>>,
                               sessionId: string, playerInput: string, roll: Option<string>)
    ensures var x := Respond(chain, histories, sessionId, playerInput, roll);
      var before := HistoryOf(histories, sessionId);
      var after := HistoryOf(x.histories, sessionId);
      && (forall k :: k != sessionId ==> (k in x.histories <==> k in histories))
      && (forall k :: k != sessionId && k in histories ==> x.histories[k] == histories[k])
      && before <= after
      && (after == before
          || after == before + [Human(Decide(playerInput, roll).input), Ai(x.reply)])
      && (|after| > |before| <==>
            Decide(playerInput, roll).Forward?
            && chain(before, Decide(playerInput, roll).input, Decide(playerInput, roll).roll).Replied?)
  {
  }

  /** Every failure, of the roll string or of the model, is reported as a reply that
      starts with the error prefix, and nothing is remembered for it. */
  lemma FailuresReported(chain: Chain, histories: map<string, seq<Turn>>,
                         sessionId: string, playerInput: string, roll: Option<string>)
    ensures var d := Decide(playerInput, roll);
      var x := Respond(chain, histories, sessionId, playerInput, roll);
      var h := HistoryOf(histories, sessionId);
      (d.Fail? || (d.Forward? && chain(h, d.input, d.roll).Raised?)) ==>
        && ErrorPrefix <= x.reply
        && HistoryOf(x.histories, sessionId) == h
  {
  }
}

=== FILE: dice_roller.dfy ===
/** `DiceRoller` in utils/dice_roller.py: the `{{roll:NdS}}` helpers `extract_dice` and
    `clean_text`, and the static `roll`, whose calls to `random.randint(1, sides)`
    are replaced by a given sequence of draws. */
module DiceRoller {
  import opened Strings
  import opened Notation

  /** A match of `\{\{roll:(\d+d\d+)\}\}`: `text[start..end]`; group 1 is
      `text[start + 7..end - 2]`. */
  datatype Span = Span(start: nat, end: nat)

  /** The language of the pattern: `{{roll:`, the notation, `}}`. */
  ghost predicate IsBraceText(x: string) {
    |x| >= 12 && x[..7] == "{{roll:" && x[|x| - 2..] == "}}" && IsDiceText(x[7..|x| - 2])
  }

  /** The pattern anchored at position `i`. The digit runs are read greedily; a shorter
      run could only be followed by a digit, never by the `d` or `}` the pattern needs,
      so the regular expression's backtracking never finds another match. */
  function BraceAt(s: string, i: nat): (r: Option<Span>)
    requires i <= |s|
    ensures r.Some? ==> r.value.start == i && i + 12 <= r.value.end <= |s|
  {
    if i + 7 <= |s| && s[i..i + 7] == "{{roll:" then
      match MatchDice(s[i + 7..])
      case None => None
      case Some(p) =>
        var e := i + 7 + p.len;
        if e + 2 <= |s| && s[e..e + 2] == "}}" then Some(Span(i, e + 2)) else None
    else None
  }

  /** Where the three parts of a match sit inside it. */
  lemma BraceParts(s: string, i: nat, e: nat)
    requires i + 7 <= e && e + 2 <= |s|
    ensures var x := s[i..e + 2];
      x[..7] == s[i..i + 7] && x[|x| - 2..] == s[e..e + 2] && x[7..|x| - 2] == s[i + 7..e]
  {
    SliceOfSlice(s, i, e + 2, 0, 7);
    SliceOfSlice(s, i, e + 2, 7, e - i);
    SliceOfSlice(s, i, e + 2, e - i, e + 2 - i);
  }

  /** The anchored match from its three parts. */
  lemma BraceAtParts(s: string, i: nat, d: Dice, len: nat)
    requires i + 7 <= |s| && s[i..i + 7] == "{{roll:"
    requires MatchDice(s[i + 7..]) == Some(DiceMatch(d, len))
    requires i + 9 + len <= |s| && s[i + 7 + len..i + 9 + len] == "}}"
    ensures BraceAt(s, i) == Some(Span(i, i + 9 + len))
  {
  }

  /** What the anchored match finds is in the pattern's language. */
  lemma BraceAtSound(s: string, i: nat)
    requires i <= |s| && BraceAt(s, i).Some?
    ensures IsBraceText(s[i..BraceAt(s, i).value.end])
  {
    var p := MatchDice(s[i + 7..]).value;
    assert BraceAt(s, i).value.end == i + 9 + p.len;
    MatchDiceInLanguage(s[i + 7..]);
    BraceTextOf(s, i, p.len);
  }

  /** The three parts, in place, make a text of the pattern's language. */
  lemma BraceTextOf(s: string, i: nat, n: nat)
    requires i + 9 + n <= |s| && s[i..i + 7] == "{{roll:" && s[i + 7 + n..i + 9 + n] == "}}"
    requires IsDiceText(s[i + 7..][..n])
    ensures IsBraceText(s[i..i + 9 + n])
  {
    PrefixOfSuffix(s, i + 7, n);
    BraceParts(s, i, i + 7 + n);
  }

  /** The group of an anchored match is a notation matched whole. */
  lemma BraceGroupWhole(s: string, i: nat, e: nat)
    requires i <= |s| && BraceAt(s, i) == Some(Span(i, e))
    ensures MatchDice(s[i + 7..e - 2]).Some? && MatchDice(s[i + 7..e - 2]).value.len == e - i - 9
  {
    var p := MatchDice(s[i + 7..]).value;
    assert e == i + 9 + p.len;
    PrefixOfSuffix(s, i + 7, p.len);
    MatchDiceWhole(s[i + 7..], s[i + 7..e - 2]);
  }

  /** Wherever the pattern's language occurs, the anchored match finds exactly that span. */
  lemma BraceAtComplete(s: string, i: nat, j: nat)
    requires i <= j <= |s| && IsBraceText(s[i..j])
    ensures BraceAt(s, i) == Some(Span(i, j))
  {
    var t := s[i + 7..];
    assert s[i..i + 7] == "{{roll:" && s[j - 2..j] == "}}" && IsDiceText(s[i + 7..j - 2]) by {
      BraceParts(s, i, j - 2);
    }
    assert t[..j - i - 9] == s[i + 7..j - 2];
    assert t[j - i - 9] == s[j - 2..j][0];
    MatchDiceComplete(t, j - i - 9);
    BraceAtParts(s, i, MatchDice(t).value.dice, j - i - 9);
  }

  /** The leftmost match at or after `i`: `re.search` from `i`. */
  function FirstBraceFrom(s: string, i: nat): (r: Option<Span>)
    requires i <= |s|
    ensures r.Some? ==> i <= r.value.start <= |s| && BraceAt(s, r.value.start) == r
    decreases |s| - i
  {
    if BraceAt(s, i).Some? then BraceAt(s, i)
    else if i == |s| then None
    else FirstBraceFrom(s, i + 1)
  }

  /** The search finds the leftmost match: none starts before the one it returns, and
      none at all when it returns nothing. */
  lemma {:induction false} FirstBraceLeftmost(s: string, i: nat, k: nat)
    requires i <= k <= |s|
    requires FirstBraceFrom(s, i).Some? ==> k < FirstBraceFrom(s, i).value.start
    ensures BraceAt(s, k).None?
    decreases k - i
  {
    if k > i {
      assert BraceAt(s, i).None?;
      FirstBraceLeftmost(s, i + 1, k);
    }
  }

  /** `extract_dice`: group 1 of the first match, or `None`. Whatever it returns,
      `roll`'s prefix match accepts whole, so `roll` never takes its error branch on it. */
  function ExtractDice(text: string): (r: Option<string>)
    ensures r.Some? ==> MatchDice(r.value).Some? && MatchDice(r.value).value.len == |r.value|
  {
    match FirstBraceFrom(text, 0)
    case None => None
    case Some(m) =>
      BraceGroupWhole(text, m.start, m.end);
      Some(text[m.start + 7..m.end - 2])
  }

  /** `extract_dice` returns the notation inside the leftmost `{{roll:NdS}}`: wherever
      the pattern occurs, a match is found that starts no later and is in the pattern's
      language, and its group is what is returned. */
  lemma ExtractDiceLeftmost(text: string, k: nat, j: nat)
    requires k <= j <= |text| && IsBraceText(text[k..j])
    ensures FirstBraceFrom(text, 0).Some?
    ensures var m := FirstBraceFrom(text, 0).value;
      && m.start <= k && IsBraceText(text[m.start..m.end])
      && ExtractDice(text) == Some(text[m.start + 7..m.end - 2])
  {
    BraceAtComplete(text, k, j);
    if FirstBraceFrom(text, 0).None? || FirstBraceFrom(text, 0).value.start > k {
      FirstBraceLeftmost(text, 0, k);
    }
    var m := FirstBraceFrom(text, 0).value;
    BraceAtSound(text, m.start);
  }

  /** Nothing is extracted when the pattern occurs nowhere. */
  lemma ExtractDiceNone(text: string)
    requires forall k, j :: 0 <= k <= j <= |text| ==> !IsBraceText(text[k..j])
    ensures ExtractDice(text).None?
  {
    if FirstBraceFrom(text, 0).Some? {
      var m := FirstBraceFrom(text, 0).value;
      BraceAtSound(text, m.start);
    }
  }

  /** `re.sub(DICE_PATTERN, "", text)` from position `i`: each match, scanning left to
      right and resuming after it, is deleted; every other character is kept. */
  function RemoveBraces(s: string, i: nat): (r: string)
    requires i <= |s|
    ensures |r| <= |s| - i
    decreases |s| - i
  {
    if i == |s| then []
    else match BraceAt(s, i)
      case Some(m) => RemoveBraces(s, m.end)
      case None => [s[i]] + RemoveBraces(s, i + 1)
  }

  /** `clean_text`: delete every match, then `.strip()`. The result is no longer than
      the text and neither starts nor ends with whitespace. */
  function CleanText(text: string): (r: string)
    ensures |r| <= |text|
    ensures r == [] || (!IsSpace(r[0]) && !IsSpace(r[|r| - 1]))
  {
    Strip(RemoveBraces(text, 0))
  }

  /** Where the pattern does not occur, the substitution keeps the text as it is. */
  lemma {:induction false} RemoveBracesNone(s: string, i: nat)
    requires i <= |s|
    requires forall k :: i <= k <= |s| ==> BraceAt(s, k).None?
    ensures RemoveBraces(s, i) == s[i..]
    decreases |s| - i
  {
    if i < |s| {
      RemoveBracesNone(s, i + 1);
      assert s[i..] == [s[i]] + s[i + 1..];
    }
  }

  /** Up to the first match the text is kept, the match is deleted, and the
      substitution resumes right after it. */
  lemma {:induction false} RemoveBracesFirst(s: string, i: nat, m: Span)
    requires i <= |s| && FirstBraceFrom(s, i) == Some(m)
    ensures RemoveBraces(s, i) == s[i..m.start] + RemoveBraces(s, m.end)
    decreases |s| - i
  {
    if m.start > i {
      assert BraceAt(s, i).None?;
      assert FirstBraceFrom(s, i + 1) == Some(m);
      RemoveBracesFirst(s, i + 1, m);
      ConsSlice(s, i, m.start);
    }
  }

  /** `clean_text` on a text without the pattern only strips it. */
  lemma CleanTextPlain(text: string)
    requires ExtractDice(text).None?
    ensures CleanText(text) == Strip(text)
  {
    forall k | 0 <= k <= |text| ensures BraceAt(text, k).None? {
      FirstBraceLeftmost(text, 0, k);
    }
    RemoveBracesNone(text, 0);
  }

  /** `clean_text` on a text with the pattern keeps what precedes the first match, drops
      the match, and goes on after it. */
  lemma CleanTextFirst(text: string)
    requires ExtractDice(text).Some?
    ensures var m := FirstBraceFrom(text, 0).value;
      CleanText(text) == Strip(text[..m.start] + RemoveBraces(text, m.end))
  {
    RemoveBracesFirst(text, 0, FirstBraceFrom(text, 0).value);
  }

  /** `roll`'s answer: the draws and the result line, or the exception `random.randint`
      raises for an empty range (a positive count of dice with zero sides). */
  datatype RollOutcome = Rolled(rolls: seq<int>, text: string) | RandintRaised

  /** The text returned when `dice` does not start with the notation. */
  const RollErrorText: string := "[ошибка броска]"

  /** `str(r)` for each draw. */
  function RollStrings(rolls: seq<int>): (r: seq<string>)
    ensures |r| == |rolls|
  {
    seq(|rolls|, k requires 0 <= k < |rolls| => IntToString(rolls[k]))
  }

  /** Each number shown in the result line reads back, by `int()`, as its draw, and none
      of them contains the `" + "` that separates them. */
  lemma RollStringsReadBack(rolls: seq<int>, k: nat)
    requires k < |rolls|
    ensures PyInt(RollStrings(rolls)[k]) == Some(rolls[k])
    ensures ' ' !in RollStrings(rolls)[k]
  {
    assert RollStrings(rolls)[k] == IntToString(rolls[k]);
    IntRoundTrip(rolls[k]);
    IntToStringChars(rolls[k]);
  }

  /** `f"🎲 Ты бросил {dice}: {rolls_str} = {sum(rolls)}"`. */
  function ResultText(dice: string, rolls: seq<int>): string {
    "🎲 Ты бросил " + dice + ": " + Join(RollStrings(rolls), " + ") + " = " + IntToString(Sum(rolls))
  }
  /** The result line names the dice, then the draws, and ends with `" = "` and the
      total, which reads back as the sum of the draws; with no draws it ends `": = 0"`. */
  lemma ResultTextShape(dice: string, rolls: seq<int>)
    ensures var t := ResultText(dice, rolls);
      var head := "🎲 Ты бросил " + dice + ": ";
      var total := IntToString(Sum(rolls));
      && head <= t
      && |head| + 3 + |total| <= |t|
      && t[|t| - |total| - 3..] == " = " + total
      && PyInt(total) == Some(Sum(rolls))
      && (rolls == [] ==> t == head + " = 0")
  {
    var head := "🎲 Ты бросил " + dice + ": ";
    var mid := Join(RollStrings(rolls), " + ");
    var total := IntToString(Sum(rolls));
    var t := ResultText(dice, rolls);
    assert t == head + mid + (" = " + total);
    IntRoundTrip(Sum(rolls));
    if rolls == [] {
      assert mid == [];
      assert total == "0";
    }
  }


  /** What `random.randint(1, d.sides)` delivers for `d.count` dice: nothing when the
      range is empty (the first call raises), else `count` draws in `[1, sides]`. */
  predicate DrawsFor(d: Dice, draws: seq<int>) {
    if d.count > 0 && d.sides == 0 then draws == []
    else |draws| == d.count && forall k :: 0 <= k < |draws| ==> 1 <= draws[k] <= d.sides
  }

  /** The draws one call of `roll` consumes: none when the notation is missing. */
  predicate DrawsFit(dice: string, draws: seq<int>) {
    match MatchDice(dice)
    case None => draws == []
    case Some(p) => DrawsFor(p.dice, draws)
  }

  /** `DiceRoller.roll(dice)` with the given draws. */
  function Roll(dice: string, draws: seq<int>): (r: RollOutcome)
    requires DrawsFit(dice, draws)
    ensures MatchDice(dice).None? ==> r == Rolled([], RollErrorText)
    ensures MatchDice(dice).Some? ==>
              var d := MatchDice(dice).value.dice;
              (r.RandintRaised? <==> d.count > 0 && d.sides == 0)
    ensures MatchDice(dice).Some? && r.Rolled? ==>
              var d := MatchDice(dice).value.dice;
              && r.rolls == draws && |r.rolls| == d.count
              && (forall k :: 0 <= k < |r.rolls| ==> 1 <= r.rolls[k] <= d.sides)
  {
    match MatchDice(dice)
    case None => Rolled([], RollErrorText)
    case Some(p) =>
      if p.dice.count > 0 && p.dice.sides == 0 then RandintRaised
      else Rolled(draws, ResultText(dice, draws))
  }

  /** The error answer comes exactly when no prefix of `dice` is a notation. */
  lemma RollErrorIff(dice: string, draws: seq<int>)
    requires DrawsFit(dice, draws)
    ensures Roll(dice, draws) == Rolled([], RollErrorText)
            <==> forall j :: 0 <= j <= |dice| ==> !IsDiceText(dice[..j])
  {
    if MatchDice(dice).None? {
      MatchDiceSound(dice);
    } else {
      var n := MatchDice(dice).value.len;
      MatchDiceInLanguage(dice);
      assert 0 <= n <= |dice| && IsDiceText(dice[..n]);
      RollAcceptsNotation(dice, draws);
    }
  }

  /** The total of a roll of N dice with S sides lies in `[N, N * S]`. */
  lemma RollTotalBounds(dice: string, draws: seq<int>)
    requires DrawsFit(dice, draws) && MatchDice(dice).Some? && Roll(dice, draws).Rolled?
    ensures var d := MatchDice(dice).value.dice;
      d.count <= Sum(Roll(dice, draws).rolls) <= d.count * d.sides
  {
    var d := MatchDice(dice).value.dice;
    SumBounds(draws, 1, d.sides);
  }

  /** A prefix match: whatever follows the notation, short of another digit, is ignored,
      so `"2d6xyz"` rolls two six-sided dice and echoes the whole string. */
  lemma RollReadsPrefix(d: Dice, rest: string, draws: seq<int>)
    requires rest == [] || !IsDigit(rest[0])
    requires !(d.count > 0 && d.sides == 0)
    requires |draws| == d.count && forall k :: 0 <= k < |draws| ==> 1 <= draws[k] <= d.sides
    ensures DrawsFit(Format(d) + rest, draws)
    ensures Roll(Format(d) + rest, draws) == Rolled(draws, ResultText(Format(d) + rest, draws))
  {
    FormatRoundTrip(d, rest);
  }

  /** A string that starts with the notation never gets the error answer. */
  lemma RollAcceptsNotation(dice: string, draws: seq<int>)
    requires DrawsFit(dice, draws) && MatchDice(dice).Some?
    ensures Roll(dice, draws) != Rolled([], RollErrorText)
  {
    if Roll(dice, draws).Rolled? {
      assert ResultText(dice, draws)[0] == '🎲' != RollErrorText[0];
    }
  }
}

=== FILE: notation.dfy ===
/** The dice notation `NdS` (N dice with S sides each) as the game's regular
    expressions read it: `(\d+)d(\d+)`, two greedy digit runs around a `d`. */
module Notation {
  import opened Strings

  datatype Dice = Dice(count: nat, sides: nat)

  /** A successful anchored match: the dice read and how many characters it consumed. */
  datatype DiceMatch = DiceMatch(dice: Dice, len: nat)

  /** The language of `\d+d\d+`: digits, one `d`, digits. */
  ghost predicate IsDiceText(x: string) {
    exists k :: 0 < k < |x| - 1 && x[k] == 'd' && AllDigits(x[..k]) && AllDigits(x[k + 1..])
  }

  /** The canonical notation `f"{N}d{S}"`. */
  function Format(d: Dice): string {
    NatToString(d.count) + "d" + NatToString(d.sides)
  }

  /** The two groups of an anchored match and how many characters it consumed. */
  datatype DiceText = DiceText(count: string, sides: string, len: nat)

  /** `re.match(r"(\d+)d(\d+)", t)`: the notation at the very start of `t`,
      whatever follows it. Each group is the digit run on its side of the `d`. */
  function MatchDiceText(t: string): (r: Option<DiceText>)
    ensures r.Some? ==> AllDigits(r.value.count) && AllDigits(r.value.sides)
  {
    var n := DigitRun(t, 0);
    if n < |t| then SplitDice(t, n, DigitRun(t, n + 1)) else None
  }

  /** The groups around a `d` at `n` followed by `m` digits, when both are non-empty. */
  function SplitDice(t: string, n: nat, m: nat): (r: Option<DiceText>)
    requires n < |t| && n + 1 + m <= |t|
    requires AllDigits(t[..n]) && AllDigits(t[n + 1..n + 1 + m])
    ensures r.Some? ==> AllDigits(r.value.count) && AllDigits(r.value.sides)
  {
    if 0 < n && t[n] == 'd' && 0 < m then Some(DiceText(t[..n], t[n + 1..n + 1 + m], n + 1 + m)) else None
  }

  /** The match with both groups passed through `int`. */
  function MatchDice(t: string): (r: Option<DiceMatch>)
    ensures r.Some? ==> 3 <= r.value.len <= |t|
  {
    match MatchDiceText(t)
    case None => None
    case Some(g) => Some(DiceMatch(Dice(DigitsValue(g.count), DigitsValue(g.sides)), g.len))
  }

  /** What the match consumes is in the language, and the match stops before any
      further digit. */
  lemma MatchDiceInLanguage(t: string)
    requires MatchDice(t).Some?
    ensures IsDiceText(t[..MatchDice(t).value.len])
    ensures MatchDice(t).value.len == |t| || !IsDigit(t[MatchDice(t).value.len])
  {
    var n := DigitRun(t, 0);
    var len := MatchDiceText(t).value.len;
    assert t[..len][..n] == t[..n] && t[..len][n + 1..] == t[n + 1..len];
  }

  /** What the match consumes is in the language, the match stops before any further
      digit, and each group is the digit run on its side of the `d`, read in decimal. */
  lemma MatchDiceMatches(t: string)
    requires MatchDice(t).Some?
    ensures var r := MatchDice(t).value;
      && IsDiceText(t[..r.len])
      && (r.len == |t| || !IsDigit(t[r.len]))
      && exists k :: 0 < k < r.len - 1 && t[k] == 'd'
           && AllDigits(t[..k]) && r.dice.count == DigitsValue(t[..k])
           && AllDigits(t[k + 1..r.len]) && r.dice.sides == DigitsValue(t[k + 1..r.len])
  {
    var n := DigitRun(t, 0);
    var len := MatchDice(t).value.len;
    assert t[..len][..n] == t[..n] && t[..len][n + 1..] == t[n + 1..len];
  }

  /** The groups of the match are the two digit runs. */
  lemma MatchDiceTextParts(t: string, n: nat, m: nat)
    requires 0 < n < |t| && DigitRun(t, 0) == n && t[n] == 'd'
    requires 0 < m && DigitRun(t, n + 1) == m
    ensures MatchDiceText(t) == Some(DiceText(t[..n], t[n + 1..n + 1 + m], n + 1 + m))
  {
  }

  /** Two digit blocks around a `d`, with no digit after the second, are the groups. */
  lemma MatchDiceTextBlocks(t: string, n: nat, m: nat)
    requires 0 < n && 0 < m && n + 1 + m <= |t| && t[n] == 'd'
    requires AllDigits(t[..n]) && AllDigits(t[n + 1..n + 1 + m])
    requires n + 1 + m == |t| || !IsDigit(t[n + 1 + m])
    ensures MatchDiceText(t) == Some(DiceText(t[..n], t[n + 1..n + 1 + m], n + 1 + m))
  {
    assert t[0..n] == t[..n];
    DigitRunOver(t, 0, n);
    DigitRunOver(t, n + 1, m);
    MatchDiceTextParts(t, n, m);
  }

  /** The regular expression matches at the start of `t` exactly when some prefix of
      `t` is in the language, and then it takes the longest one. */
  lemma MatchDiceComplete(t: string, j: nat)
    requires j <= |t| && IsDiceText(t[..j])
    requires j == |t| || !IsDigit(t[j])
    ensures MatchDice(t).Some? && MatchDice(t).value.len == j
  {
    var x := t[..j];
    var k :| 0 < k < |x| - 1 && x[k] == 'd' && AllDigits(x[..k]) && AllDigits(x[k + 1..]);
    assert t[..k] == x[..k] && t[k + 1..j] == x[k + 1..];
    MatchDiceTextBlocks(t, k, j - k - 1);
  }

  /** A prefix in the language makes the match succeed. */
  lemma DiceTextMatches(t: string, j: nat)
    requires j <= |t| && IsDiceText(t[..j])
    ensures MatchDice(t).Some?
  {
    var x := t[..j];
    var k :| 0 < k < |x| - 1 && x[k] == 'd' && AllDigits(x[..k]) && AllDigits(x[k + 1..]);
    forall q | 0 <= q < k ensures IsDigit(t[q]) {
      assert t[q] == x[..k][q];
    }
    assert t[k] == 'd';
    DigitRunIs(t, 0, k);
    assert IsDigit(t[k + 1]) by {
      assert t[k + 1] == x[k + 1..][0];
    }
    MatchDiceTextParts(t, k, DigitRun(t, k + 1));
  }

  /** No prefix of `t` is in the language when the match fails. */
  lemma MatchDiceSound(t: string)
    requires MatchDice(t).None?
    ensures forall j :: 0 <= j <= |t| ==> !IsDiceText(t[..j])
  {
    forall j | 0 <= j <= |t| ensures !IsDiceText(t[..j]) {
      if IsDiceText(t[..j]) {
        DiceTextMatches(t, j);
      }
    }
  }

  /** Parsing the canonical notation, followed by anything that does not extend the
      last digit run, gives back the dice: the notation round trip, and the reason
      `"2d6xyz"` rolls 2d6. */
  lemma FormatRoundTrip(d: Dice, rest: string)
    requires rest == [] || !IsDigit(rest[0])
    ensures MatchDice(Format(d) + rest) == Some(DiceMatch(d, |Format(d)|))
  {
    var c := NatToString(d.count);
    var s := NatToString(d.sides);
    assert Format(d) + rest == c + "d" + s + rest;
    NotationGroups(c, s, rest);
  }

  /** The groups of `c + "d" + s + rest` are `c` and `s`. */
  lemma NotationGroups(c: string, s: string, rest: string)
    requires |c| > 0 && AllDigits(c) && |s| > 0 && AllDigits(s)
    requires rest == [] || !IsDigit(rest[0])
    ensures MatchDiceText(c + "d" + s + rest) == Some(DiceText(c, s, |c| + 1 + |s|))
  {
    var t := c + "d" + s + rest;
    assert t[..|c|] == c;
    assert t[|c| + 1..|c| + 1 + |s|] == s;
    MatchDiceTextBlocks(t, |c|, |s|);
  }

  /** The matched prefix, taken on its own, is matched whole. */
  lemma MatchDiceWhole(t: string, g: string)
    requires MatchDice(t).Some? && g == t[..MatchDice(t).value.len]
    ensures MatchDice(g).Some? && MatchDice(g).value.len == |g|
  {
    MatchDiceInLanguage(t);
    assert g[..|g|] == g;
    MatchDiceComplete(g, |g|);
  }

  /** The canonical notation is made of digits and one `d`; in particular it holds no
      bracket, brace or space. */
  lemma FormatChars(d: Dice)
    ensures forall k :: 0 <= k < |Format(d)| ==> IsDigit(Format(d)[k]) || Format(d)[k] == 'd'
  {
    var c := NatToString(d.count);
    var s := NatToString(d.sides);
    assert Format(d) == c + "d" + s;
  }
}

=== FILE: roll_marker.dfy ===
/** The roll request `[roll:NdS]` that the narrator embeds in its replies, as
    `re.search(r"\[roll:(\d+)d(\d+)\]", text)` finds it. The chatbot facade, both
    bot handlers and the web front end all use this one pattern and honour only
    its first match. */
module RollMarker {
  import opened Strings
  import opened Notation

  /** A match: `text[start..end]` is the marker, `dice` its two groups read by `int()`. */
  datatype Marker = Marker(start: nat, end: nat, dice: Dice)

  /** The language of the pattern: `[roll:`, the notation `\d+d\d+`, `]`. */
  ghost predicate IsMarkerText(x: string) {
    |x| >= 8 && x[..6] == "[roll:" && x[|x| - 1] == ']' && IsDiceText(x[6..|x| - 1])
  }

  /** The pattern anchored at position `i` of `s`. */
  function MatchAt(s: string, i: nat): (r: Option<Marker>)
    requires i <= |s|
    ensures r.Some? ==> r.value.start == i && i < r.value.end <= |s|
  {
    if i + 6 <= |s| && s[i..i + 6] == "[roll:" then
      match MatchDice(s[i + 6..])
      case None => None
      case Some(p) =>
        var e := i + 6 + p.len;
        if e < |s| && s[e] == ']' then
          Some(Marker(i, e + 1, p.dice))
        else None
    else None
  }

  /** `[roll:`, a dice text and `]` side by side make a marker. */
  lemma MarkerFromParts(s: string, i: nat, e: nat)
    requires i + 6 <= e < |s| && s[i..i + 6] == "[roll:" && IsDiceText(s[i + 6..e]) && s[e] == ']'
    ensures s[i] == '[' && IsMarkerText(s[i..e + 1])
  {
    var x := s[i..e + 1];
    assert s[i] == s[i..i + 6][0];
    assert x[..6] == s[i..i + 6];
    SliceOfSlice(s, i, e + 1, 6, e - i);
  }

  /** What the anchored match finds is in the marker language. */
  lemma MatchAtSound(s: string, i: nat)
    requires i <= |s| && MatchAt(s, i).Some?
    ensures s[i] == '[' && IsMarkerText(s[i..MatchAt(s, i).value.end])
  {
    MatchAtUnfold(s, i);
    var t := s[i + 6..];
    var e := i + 6 + MatchDice(t).value.len;
    assert IsDiceText(s[i + 6..e]) by {
      MatchDiceInLanguage(t);
      PrefixOfSuffix(s, i + 6, MatchDice(t).value.len);
    }
    MarkerFromParts(s, i, e);
  }

  /** A successful anchored match, taken apart. */
  lemma MatchAtUnfold(s: string, i: nat)
    requires i <= |s| && MatchAt(s, i).Some?
    ensures i + 6 <= |s| && s[i..i + 6] == "[roll:" && MatchDice(s[i + 6..]).Some?
    ensures var e := i + 6 + MatchDice(s[i + 6..]).value.len;
      e < |s| && s[e] == ']' && MatchAt(s, i).value.end == e + 1
  {
  }

  /** Wherever the marker language occurs, the anchored match finds exactly that span. */
  lemma MatchAtComplete(s: string, i: nat, j: nat)
    requires i <= j <= |s| && IsMarkerText(s[i..j])
    ensures MatchAt(s, i).Some? && MatchAt(s, i).value.end == j
  {
    var x := s[i..j];
    var t := s[i + 6..];
    assert s[i..i + 6] == x[..6];
    SliceOfSlice(s, i, j, 6, j - i - 1);
    assert t[..j - i - 7] == s[i + 6..j - 1];
    assert t[j - i - 7] == x[|x| - 1];
    MatchDiceComplete(t, j - i - 7);
  }

  /** The leftmost match at or after position `i`: `re.search` from `i`. */
  function FirstFrom(s: string, i: nat): (r: Option<Marker>)
    requires i <= |s|
    ensures r.Some? ==> i <= r.value.start <= |s| && MatchAt(s, r.value.start) == r
    decreases |s| - i
  {
    if MatchAt(s, i).Some? then MatchAt(s, i)
    else if i == |s| then None
    else FirstFrom(s, i + 1)
  }

  /** The search finds the leftmost match: none starts before the one it returns, and
      none at all when it returns nothing. */
  lemma {:induction false} FirstFromLeftmost(s: string, i: nat, k: nat)
    requires i <= k <= |s|
    requires FirstFrom(s, i).Some? ==> k < FirstFrom(s, i).value.start
    ensures MatchAt(s, k).None?
    decreases k - i
  {
    if k > i {
      assert MatchAt(s, i).None?;
      FirstFromLeftmost(s, i + 1, k);
    }
  }

  /** `re.search(r"\[roll:(\d+)d(\d+)\]", s)`: the anchored match at the leftmost
      position where there is one, or none when there is none anywhere. */
  function FirstMarker(s: string): (r: Option<Marker>)
    ensures r.Some? ==> r.value.start <= |s| && MatchAt(s, r.value.start) == r
    ensures r.Some? ==> forall k :: 0 <= k < r.value.start ==> MatchAt(s, k).None?
    ensures r.None? ==> forall k :: 0 <= k <= |s| ==> MatchAt(s, k).None?
  {
    var r := FirstFrom(s, 0);
    assert forall k :: 0 <= k <= |s| && (r.None? || k < r.value.start) ==> MatchAt(s, k).None? by {
      forall k | 0 <= k <= |s| && (r.None? || k < r.value.start) ensures MatchAt(s, k).None? {
        FirstFromLeftmost(s, 0, k);
      }
    }
    r
  }

  /** The marker's own text, `match.group(0)`. */
  function MarkerText(s: string, m: Marker): string
    requires m.start <= m.end <= |s|
  {
    s[m.start..m.end]
  }

  /** What the scan of a reply leaves pending: the first marker's dice, or none. */
  function PendingFrom(s: string): Option<Dice> {
    match FirstMarker(s)
    case None => None
    case Some(m) => Some(m.dice)
  }

  /** A text with no `[` holds no marker. */
  lemma NoBracketNoMarker(s: string)
    requires '[' !in s
    ensures FirstMarker(s).None?
  {
    if FirstMarker(s).Some? {
      MatchAtSound(s, FirstMarker(s).value.start);
    }
  }

  /** Inside a marker `[` only opens it, `]` only closes it, and every character is ASCII. */
  lemma MarkerShape(x: string)
    requires IsMarkerText(x)
    ensures x[0] == '[' && x[|x| - 1] == ']'
    ensures forall k :: 0 < k < |x| ==> x[k] != '['
    ensures forall k :: 0 <= k < |x| - 1 ==> x[k] != ']'
    ensures forall k :: 0 <= k < |x| ==> x[k] < '\U{80}'
  {
    var y := x[6..|x| - 1];
    var d :| 0 < d < |y| - 1 && y[d] == 'd' && AllDigits(y[..d]) && AllDigits(y[d + 1..]);
    assert x[0] == x[..6][0];
    forall k | 0 <= k < |x|
      ensures (0 < k ==> x[k] != '[') && (k < |x| - 1 ==> x[k] != ']') && x[k] < '\U{80}'
    {
      if k < 6 {
        assert x[k] == x[..6][k];
      } else if k < |x| - 1 {
        assert x[k] == y[k - 6];
        if k - 6 < d {
          assert y[k - 6] == y[..d][k - 6];
        } else if k - 6 > d {
          assert y[k - 6] == y[d + 1..][k - 7 - d];
        }
      }
    }
  }

  /** Two markers starting at the same place are the same marker. */
  lemma MarkerEndUnique(s: string, i: nat, j1: nat, j2: nat)
    requires i <= j1 <= |s| && i <= j2 <= |s|
    requires IsMarkerText(s[i..j1]) && IsMarkerText(s[i..j2])
    ensures j1 == j2
  {
    MatchAtComplete(s, i, j1);
    MatchAtComplete(s, i, j2);
  }

  /** A replacement without brackets and with a character outside ASCII can neither
      start, end nor lie inside a marker. */
  lemma BreaksMarker(t: string, rep: string, j: nat)
    requires IsMarkerText(t)
    requires '[' !in rep && ']' !in rep
    requires j < |rep| && rep[j] >= '\U{80}'
    ensures Breaks(rep, t)
  {
    MarkerShape(t);
  }

  /** Replacing every occurrence of a marker's text by such a replacement consumes
      the marker: its text occurs nowhere in the result. */
  lemma ReplacingMarkerConsumesIt(s: string, t: string, rep: string, j: nat)
    requires IsMarkerText(t)
    requires '[' !in rep && ']' !in rep
    requires j < |rep| && rep[j] >= '\U{80}'
    ensures !Contains(ReplaceAll(s, t, rep), t)
  {
    BreaksMarker(t, rep, j);
    ReplaceAllRemoves(s, t, rep);
  }

  /** Two different markers in one text are disjoint: the `[` that opens one cannot
      lie inside the other, and markers with a common start coincide. */
  lemma MarkersDoNotOverlap(s: string, i: nat, j: nat, q: nat, e: nat)
    requires i <= j <= |s| && q <= e <= |s|
    requires IsMarkerText(s[i..j]) && IsMarkerText(s[q..e]) && s[i..j] != s[q..e]
    ensures j <= q || e <= i
  {
    var t := s[i..j];
    var m := s[q..e];
    MarkerShape(t);
    MarkerShape(m);
    assert s[i] == t[0] && s[q] == m[0];
    assert forall p :: i < p < j ==> s[p] == t[p - i];
    assert forall p :: q < p < e ==> s[p] == m[p - q];
    if q == i {
      MarkerEndUnique(s, i, e, j);
    }
  }

  /** Replacing every occurrence of one marker's text leaves each marker with a
      different text in place: only the first match's exact text is consumed. */
  lemma OtherMarkerSurvives(s: string, t: string, rep: string, q: nat, e: nat)
    requires IsMarkerText(t)
    requires q <= e <= |s| && IsMarkerText(s[q..e]) && s[q..e] != t
    ensures Contains(ReplaceAll(s, t, rep), s[q..e])
  {
    OtherMarkerKept(s, t, rep, s[q..e], q);
  }

  /** An occurrence of a marker `m` other than `t` is kept, by induction on the
      occurrences of `t` that the replacement consumes. */
  lemma {:induction false} OtherMarkerKept(s: string, t: string, rep: string, m: string, q: nat)
    requires IsMarkerText(t) && IsMarkerText(m) && m != t && OccursAt(s, m, q)
    ensures Contains(ReplaceAll(s, t, rep), m)
    decreases |s|
  {
    MarkerShape(t);
    var f := Find(s, t, 0);
    if f.None? {
      ReplaceAllNone(s, t, rep);
    } else {
      var i := f.value;
      MarkersDoNotOverlap(s, i, i + |t|, q, q + |m|);
      if q + |m| <= i {
        SurvivesBefore(s, t, rep, m, q, i);
      } else {
        SuffixSlice(s, i + |t|, q, q + |m|);
        OtherMarkerKept(s[i + |t|..], t, rep, m, q - i - |t|);
        SurvivesAfter(s, t, rep, m, i);
      }
    }
  }

  /** A marker before the first occurrence is kept by the replacement. */
  lemma SurvivesBefore(s: string, t: string, rep: string, m: string, q: nat, i: nat)
    requires |t| > 0 && OccursAt(s, m, q) && q + |m| <= i && Find(s, t, 0) == Some(i)
    ensures Contains(ReplaceAll(s, t, rep), m)
  {
    ReplaceAllFirst(s, t, rep);
    PrefixSlice(s, i, q, q + |m|);
    ContainsBefore(s[..i], rep, ReplaceAll(s[i + |t|..], t, rep), m, q);
  }

  /** A marker kept in the replacement of what follows the first occurrence is kept
      in the replacement of the whole. */
  lemma SurvivesAfter(s: string, t: string, rep: string, m: string, i: nat)
    requires |t| > 0 && Find(s, t, 0) == Some(i)
    requires Contains(ReplaceAll(s[i + |t|..], t, rep), m)
    ensures Contains(ReplaceAll(s, t, rep), m)
  {
    ReplaceAllFirst(s, t, rep);
    ContainsAfter(s[..i], rep, ReplaceAll(s[i + |t|..], t, rep), m);
  }

  /** The marker the narrator is told to write for `d`: `[roll:NdS]`. */
  function MarkerFor(d: Dice): string {
    "[roll:" + Format(d) + "]"
  }

  /** The anchored match from its three parts. */
  lemma MatchAtParts(s: string, n: nat, d: Dice, len: nat)
    requires n + 6 <= |s| && s[n..n + 6] == "[roll:"
    requires MatchDice(s[n + 6..]) == Some(DiceMatch(d, len))
    requires n + 6 + len < |s| && s[n + 6 + len] == ']'
    ensures MatchAt(s, n) == Some(Marker(n, n + 7 + len, d))
  {
  }

  /** Where the parts of a written-out marker sit. */
  lemma MarkerSlices(pre: string, f: string, post: string)
    ensures var s := pre + ("[roll:" + f + "]") + post;
      && s[|pre|..|pre| + 6] == "[roll:" && s[|pre| + 6..] == f + ("]" + post)
  {
    var s := pre + ("[roll:" + f + "]") + post;
    var n := |pre|;
    assert s == pre + "[roll:" + f + "]" + post;
    assert s[n..] == "[roll:" + (f + ("]" + post));
    assert s[n..][..6] == "[roll:";
  }

  /** The anchored match reads back `[roll:`, the canonical notation of `d` and `]`. */
  lemma MatchAtFormatted(s: string, n: nat, d: Dice, post: string)
    requires n + 6 <= |s| && s[n..n + 6] == "[roll:" && s[n + 6..] == Format(d) + ("]" + post)
    ensures MatchAt(s, n) == Some(Marker(n, n + 7 + |Format(d)|, d))
  {
    FormatRoundTrip(d, "]" + post);
    assert s[n + 6 + |Format(d)|] == (Format(d) + ("]" + post))[|Format(d)|];
    MatchAtParts(s, n, d, |Format(d)|);
  }

  /** The anchored match reads a written-out marker back. */
  lemma MatchAtFor(pre: string, d: Dice, post: string)
    ensures MatchAt(pre + MarkerFor(d) + post, |pre|) == Some(Marker(|pre|, |pre| + |MarkerFor(d)|, d))
  {
    var f := Format(d);
    var s := pre + MarkerFor(d) + post;
    assert s[|pre|..|pre| + 6] == "[roll:" && s[|pre| + 6..] == f + ("]" + post) by {
      MarkerSlices(pre, f, post);
    }
    MatchAtFormatted(s, |pre|, d, post);
  }

  /** The scan finds a marker written after text that opens no bracket, with its dice. */
  lemma MarkerRoundTrip(pre: string, d: Dice, post: string)
    requires '[' !in pre
    ensures FirstMarker(pre + MarkerFor(d) + post) == Some(Marker(|pre|, |pre| + |MarkerFor(d)|, d))
  {
    var s := pre + MarkerFor(d) + post;
    MatchAtFor(pre, d, post);
    var r := FirstFrom(s, 0);
    if r.None? || r.value.start > |pre| {
      FirstFromLeftmost(s, 0, |pre|);
    } else if r.value.start < |pre| {
      MatchAtSound(s, r.value.start);
    }
  }
  /** What a reply leaves pending is the dice of its leftmost marker: a marker with
      those dice starts somewhere and none starts before it. With nothing pending no
      marker starts anywhere, and a written-out marker after text without `[` is what
      becomes pending. */
  lemma PendingFromLeftmost(s: string, pre: string, d: Dice, post: string)
    ensures PendingFrom(s).None? ==> forall k :: 0 <= k <= |s| ==> MatchAt(s, k).None?
    ensures PendingFrom(s).Some? ==>
      exists k :: && 0 <= k <= |s| && MatchAt(s, k).Some? && MatchAt(s, k).value.dice == PendingFrom(s).value
                  && forall j :: 0 <= j < k ==> MatchAt(s, j).None?
    ensures '[' !in pre ==> PendingFrom(pre + MarkerFor(d) + post) == Some(d)
  {
    if PendingFrom(s).Some? {
      var k := FirstMarker(s).value.start;
      assert MatchAt(s, k).Some? && MatchAt(s, k).value.dice == PendingFrom(s).value;
    }
    if '[' !in pre {
      MarkerRoundTrip(pre, d, post);
    }
  }

}

=== FILE: stats_scrape.dfy ===
// The character-sheet scrape: the first match of the hit-points pattern (the label
// `HP:`, a number, a slash, a number, with optional whitespace around each number and
// the slash) and the first match of the gold pattern (`Gold Coins:`, optional
// whitespace, a number), each group then read with `int()`.
/** Both patterns are a row of literal characters, whitespace runs and captured digit
    runs. In such a row each run is followed by something it cannot consume, so a greedy
    left-to-right reading makes the same choices as the regular-expression engine's
    backtracking. */
module StatsScrape {
  import opened Strings

  /** One element of a pattern: a literal character, a whitespace run (`\s*`), or a
      captured digit run (`(\d+)`). */
  datatype Token = Lit(c: char) | Spaces | Digits

  /** A match: how many characters of the text follow it, and the text of each captured
      group, in order. */
  datatype Found = Found(rest: nat, groups: seq<string>)

  /** How many groups a pattern captures. */
  function Groups(toks: seq<Token>): nat {
    if toks == [] then 0 else (if toks[0].Digits? then 1 else 0) + Groups(toks[1..])
  }

  /** The pattern anchored at the start of `s`, read one character at a time. `run` holds
      the digits the current group has read so far. A literal must be the next character;
      a whitespace run takes every whitespace character there; a digit group takes every
      digit there and fails if there is none. */
  function Scan(s: string, toks: seq<Token>, run: string): Option<Found>
    decreases |toks|, |s|
  {
    if toks == [] then Some(Found(|s|, []))
    else
      match toks[0]
      case Lit(c) => if s != [] && s[0] == c then Scan(s[1..], toks[1..], []) else None
      case Spaces =>
        if s != [] && IsSpace(s[0]) then Scan(s[1..], toks, []) else Scan(s, toks[1..], [])
      case Digits =>
        if s != [] && IsDigit(s[0]) then Scan(s[1..], toks, run + [s[0]])
        else if run == [] then None
        else
          match Scan(s, toks[1..], [])
          case None => None
          case Some(f) => Some(Found(f.rest, [run] + f.groups))
  }

  /** `re.match(pattern, s[i:])`. */
  function ScanAt(s: string, i: nat, toks: seq<Token>): Option<Found>
    requires i <= |s|
  {
    Scan(s[i..], toks, [])
  }

  /** A match leaves no more of the text than it was given, and captures one text per
      group of the pattern. */
  lemma {:induction false} ScanShape(s: string, toks: seq<Token>, run: string)
    requires Scan(s, toks, run).Some?
    ensures Scan(s, toks, run).value.rest <= |s|
    ensures |Scan(s, toks, run).value.groups| == Groups(toks)
    decreases |toks|, |s|
  {
    if toks != [] {
      match toks[0]
      case Lit(c) => ScanShape(s[1..], toks[1..], []);
      case Spaces =>
        if s != [] && IsSpace(s[0]) {
          ScanShape(s[1..], toks, []);
        } else {
          ScanShape(s, toks[1..], []);
        }
      case Digits =>
        if s != [] && IsDigit(s[0]) {
          ScanShape(s[1..], toks, run + [s[0]]);
        } else {
          ScanShape(s, toks[1..], []);
        }
    }
  }

  /** A digit string as `int()` reads it: at least one digit. */
  predicate IsNumeral(x: string) {
    |x| > 0 && AllDigits(x)
  }

  predicate Numerals(xs: seq<string>) {
    forall k :: 0 <= k < |xs| ==> IsNumeral(xs[k])
  }

  /** Every group a match captures is a numeral, so `int()` accepts it. */
  lemma {:induction false} ScanNumerals(s: string, toks: seq<Token>, run: string)
    requires AllDigits(run) && Scan(s, toks, run).Some?
    ensures Numerals(Scan(s, toks, run).value.groups)
    decreases |toks|, |s|
  {
    if toks != [] {
      match toks[0]
      case Lit(c) => ScanNumerals(s[1..], toks[1..], []);
      case Spaces =>
        if s != [] && IsSpace(s[0]) {
          ScanNumerals(s[1..], toks, []);
        } else {
          ScanNumerals(s, toks[1..], []);
        }
      case Digits =>
        if s != [] && IsDigit(s[0]) {
          ScanNumerals(s[1..], toks, run + [s[0]]);
        } else {
          ScanNumerals(s, toks[1..], []);
        }
    }
  }

  /** Where `re.search` finds the pattern, scanning from `i`. */
  function Search(s: string, i: nat, toks: seq<Token>): (r: Option<nat>)
    requires i <= |s|
    ensures r.Some? ==> i <= r.value <= |s| && ScanAt(s, r.value, toks).Some?
    decreases |s| - i
  {
    if ScanAt(s, i, toks).Some? then Some(i)
    else if i == |s| then None
    else Search(s, i + 1, toks)
  }

  /** No match starts before the one found, and none at all when none is found. */
  lemma {:induction false} SearchLeftmost(s: string, i: nat, k: nat, toks: seq<Token>)
    requires i <= k <= |s|
    requires Search(s, i, toks).Some? ==> k < Search(s, i, toks).value
    ensures ScanAt(s, k, toks).None?
    decreases k - i
  {
    if k > i {
      SearchLeftmost(s, i + 1, k, toks);
    }
  }

  /** The search stops at the first position where the pattern matches. */
  lemma {:induction false} SearchFinds(s: string, i: nat, k: nat, toks: seq<Token>)
    requires i <= k <= |s| && ScanAt(s, k, toks).Some?
    requires forall j :: i <= j < k ==> ScanAt(s, j, toks).None?
    ensures Search(s, i, toks) == Some(k)
    decreases k - i
  {
    if k > i {
      SearchFinds(s, i + 1, k, toks);
    }
  }

  /** The group texts of the leftmost match. */
  function FirstGroups(s: string, toks: seq<Token>): (r: Option<seq<string>>)
    ensures r.Some? ==> |r.value| == Groups(toks) && Numerals(r.value)
  {
    match Search(s, 0, toks)
    case None => None
    case Some(p) =>
      ScanShape(s[p..], toks, []);
      ScanNumerals(s[p..], toks, []);
      Some(ScanAt(s, p, toks).value.groups)
  }

  /** A row of literal tokens, one per character of `w`. */
  function Lits(w: string): (r: seq<Token>)
    ensures |r| == |w| && forall k :: 0 <= k < |w| ==> r[k] == Lit(w[k])
  {
    seq(|w|, k requires 0 <= k < |w| => Lit(w[k]))
  }

  /** A match of a pattern that opens with the literals of `w` starts with `w`. */
  lemma {:induction false} MatchOpensWith(s: string, w: string, toks: seq<Token>)
    requires Scan(s, Lits(w) + toks, []).Some?
    ensures w <= s
    decreases |w|
  {
    if w != [] {
      assert (Lits(w) + toks)[0] == Lit(w[0]);
      assert (Lits(w) + toks)[1..] == Lits(w[1..]) + toks;
      MatchOpensWith(s[1..], w[1..], toks);
    }
  }

  /** A search that succeeds finds `w` in the text. */
  lemma SearchFindsLabel(s: string, w: string, toks: seq<Token>)
    requires Search(s, 0, Lits(w) + toks).Some?
    ensures Contains(s, w)
  {
    var p := Search(s, 0, Lits(w) + toks).value;
    MatchOpensWith(s[p..], w, toks);
    assert s[p..][..|w|] == s[p..p + |w|];
    assert OccursAt(s, w, p);
  }

  // --- writing a pattern out ---------------------------------------------------------

  /** The text one token stands for in a canonical text: the literal, a single space, or the
      next group's text. */
  function HeadText(t: Token, texts: seq<string>): string
    requires t.Digits? ==> texts != []
  {
    match t
    case Lit(c) => [c]
    case Spaces => " "
    case Digits => texts[0]
  }

  /** The group texts left after the token `t` took its own. */
  function RestTexts(t: Token, texts: seq<string>): seq<string>
    requires t.Digits? ==> texts != []
  {
    if t.Digits? then texts[1..] else texts
  }

  /** The canonical text for a pattern: each literal, one space per whitespace run, and
      each group's text. */
  function CanonicalText(toks: seq<Token>, texts: seq<string>): string
    requires |texts| == Groups(toks)
    decreases |toks|
  {
    if toks == [] then []
    else HeadText(toks[0], texts) + CanonicalText(toks[1..], RestTexts(toks[0], texts))
  }

  /** `ch` can begin the canonical text of `t`. */
  predicate Begins(ch: char, t: Token) {
    match t
    case Lit(c) => ch == c
    case Spaces => ch == ' '
    case Digits => IsDigit(ch)
  }

  /** `ch` cannot extend a run of `t`. */
  predicate Stops(t: Token, ch: char) {
    match t
    case Lit(_) => true
    case Spaces => !IsSpace(ch)
    case Digits => !IsDigit(ch)
  }

  predicate Fits(t: Token, u: Token) {
    !(t.Spaces? && u.Spaces?) && !(t.Digits? && u.Digits?) && (u.Lit? ==> Stops(t, u.c))
  }

  predicate FitsAt(toks: seq<Token>, k: nat)
    requires k + 1 < |toks|
  {
    Fits(toks[k], toks[k + 1])
  }

  /** No run is followed by a token whose canonical text it would swallow. */
  predicate Separated(toks: seq<Token>) {
    forall k :: 0 <= k < |toks| - 1 ==> FitsAt(toks, k)
  }

  /** Nothing may follow the text of the pattern that would extend its last run. */
  predicate EndsBefore(toks: seq<Token>, post: string) {
    post == [] || toks == [] || Stops(toks[|toks| - 1], post[0])
  }

  lemma SeparatedTail(toks: seq<Token>)
    requires toks != [] && Separated(toks)
    ensures Separated(toks[1..])
  {
    forall k | 0 <= k < |toks| - 2 ensures FitsAt(toks[1..], k) {
      assert FitsAt(toks, k + 1);
    }
  }

  lemma HeadBegins(t: Token, texts: seq<string>)
    requires t.Digits? ==> texts != [] && IsNumeral(texts[0])
    ensures |HeadText(t, texts)| > 0 && Begins(HeadText(t, texts)[0], t)
  {
  }

  /** Every character of a canonical text over numerals is one of the pattern's literals, a
      space or a digit. */
  lemma {:induction false} CanonicalChars(toks: seq<Token>, texts: seq<string>, ch: char)
    requires |texts| == Groups(toks) && Numerals(texts)
    requires ch in CanonicalText(toks, texts)
    ensures Lit(ch) in toks || ch == ' ' || IsDigit(ch)
    decreases |toks|
  {
    var x := HeadText(toks[0], texts);
    var rest := CanonicalText(toks[1..], RestTexts(toks[0], texts));
    assert CanonicalText(toks, texts) == x + rest;
    if ch in rest {
      NumeralsTail(toks[0], texts);
      CanonicalChars(toks[1..], RestTexts(toks[0], texts), ch);
      assert forall t :: t in toks[1..] ==> t in toks;
    } else if toks[0].Digits? {
      assert IsNumeral(texts[0]);
    }
  }

  lemma NumeralsTail(t: Token, texts: seq<string>)
    requires t.Digits? ==> texts != []
    requires Numerals(texts)
    ensures Numerals(RestTexts(t, texts))
    ensures t.Digits? ==> IsNumeral(texts[0])
  {
    if t.Digits? {
      forall k | 0 <= k < |texts| - 1 ensures IsNumeral(texts[1..][k]) {
        assert texts[1..][k] == texts[k + 1];
      }
    }
  }

  /** A digit group keeps reading while digits follow. */
  lemma {:induction false} ScanDigits(x: string, y: string, toks: seq<Token>, run: string)
    requires toks != [] && toks[0].Digits? && AllDigits(x)
    ensures Scan(x + y, toks, run) == Scan(y, toks, run + x)
    decreases |x|
  {
    if x == [] {
      assert x + y == y && run + x == run;
    } else {
      assert (x + y)[0] == x[0] && (x + y)[1..] == x[1..] + y;
      ScanDigits(x[1..], y, toks, run + [x[0]]);
      assert run + [x[0]] + x[1..] == run + x;
    }
  }

  /** The first token's canonical text followed by a match of the rest of the pattern
      is a match of the whole pattern, with the token's group (if any) in front. */
  lemma HeadThenRest(toks: seq<Token>, texts: seq<string>, y: string, left: nat)
    requires toks != [] && |texts| == Groups(toks)
    requires toks[0].Digits? ==> IsNumeral(texts[0])
    requires y == [] || Stops(toks[0], y[0])
    requires Scan(y, toks[1..], []) == Some(Found(left, RestTexts(toks[0], texts)))
    ensures Scan(HeadText(toks[0], texts) + y, toks, []) == Some(Found(left, texts))
  {
    var x := HeadText(toks[0], texts);
    match toks[0]
    case Lit(c) =>
      assert (x + y)[0] == c && (x + y)[1..] == y;
    case Spaces =>
      assert (x + y)[0] == ' ' && (x + y)[1..] == y;
      assert Scan(x + y, toks, []) == Scan(y, toks, []);
    case Digits =>
      ScanDigits(x, y, toks, []);
      assert [] + x == x;
      assert [texts[0]] + texts[1..] == texts;
  }

  lemma CanonicalStep(toks: seq<Token>, texts: seq<string>)
    requires toks != [] && |texts| == Groups(toks)
    ensures CanonicalText(toks, texts)
         == HeadText(toks[0], texts) + CanonicalText(toks[1..], RestTexts(toks[0], texts))
  {
  }

  /** What follows the first token's text in place cannot extend that token: the next
      token's text begins with a character the first token stops at, or, for the last
      token, the text after the pattern does. */
  lemma NextStops(toks: seq<Token>, texts: seq<string>, post: string, y: string)
    requires toks != [] && Separated(toks) && |texts| == Groups(toks) && Numerals(texts)
    requires EndsBefore(toks, post)
    requires y == CanonicalText(toks[1..], RestTexts(toks[0], texts)) + post
    ensures y == [] || Stops(toks[0], y[0])
  {
    var rtexts := RestTexts(toks[0], texts);
    if toks[1..] != [] {
      NumeralsTail(toks[0], texts);
      NumeralsTail(toks[1], rtexts);
      HeadBegins(toks[1], rtexts);
      CanonicalStep(toks[1..], rtexts);
      assert FitsAt(toks, 0);
    } else {
      assert CanonicalText(toks[1..], rtexts) == [];
      assert y == post;
    }
  }

  /** The matcher reads a pattern's canonical text back: it consumes exactly the text and
      recovers every group's text, provided the text is not followed by a character that
      would extend the final run. */
  lemma {:induction false} ScanCanonical(toks: seq<Token>, texts: seq<string>, post: string)
    requires Separated(toks) && |texts| == Groups(toks) && Numerals(texts)
    requires EndsBefore(toks, post)
    ensures Scan(CanonicalText(toks, texts) + post, toks, []) == Some(Found(|post|, texts))
    decreases |toks|
  {
    if toks == [] {
      assert CanonicalText(toks, texts) + post == post;
      return;
    }
    var rtexts := RestTexts(toks[0], texts);
    var y := CanonicalText(toks[1..], rtexts) + post;
    CanonicalStep(toks, texts);
    assert CanonicalText(toks, texts) + post == HeadText(toks[0], texts) + y;
    SeparatedTail(toks);
    NumeralsTail(toks[0], texts);
    assert EndsBefore(toks[1..], post) by {
      if toks[1..] != [] {
        assert toks[1..][|toks[1..]| - 1] == toks[|toks| - 1];
      }
    }
    ScanCanonical(toks[1..], rtexts, post);
    NextStops(toks, texts, post, y);
    HeadThenRest(toks, texts, y, |post|);
  }

  /** A text that starts with another character does not match a pattern that opens
      with a literal. */
  lemma LitMismatch(s: string, toks: seq<Token>)
    requires toks != [] && toks[0].Lit? && s != [] && s[0] != toks[0].c
    ensures Scan(s, toks, []).None?
  {
  }

  /** No match starts inside text that lacks the pattern's leading literal. */
  lemma NoMatchBeforeLead(pre: string, rest: string, toks: seq<Token>)
    requires toks != [] && toks[0].Lit? && toks[0].c !in pre
    ensures forall j :: 0 <= j < |pre| ==> ScanAt(pre + rest, j, toks).None?
  {
    forall j | 0 <= j < |pre| ensures ScanAt(pre + rest, j, toks).None? {
      assert (pre + rest)[j..][0] == pre[j];
      LitMismatch((pre + rest)[j..], toks);
    }
  }

  /** Text in which no match starts, then the pattern's canonical text, yields exactly
      the groups written out. */
  lemma FirstGroupsCanonical(pre: string, toks: seq<Token>, texts: seq<string>, post: string)
    requires Separated(toks) && |texts| == Groups(toks) && Numerals(texts)
    requires EndsBefore(toks, post)
    requires forall j :: 0 <= j < |pre| ==> ScanAt(pre + CanonicalText(toks, texts) + post, j, toks).None?
    ensures FirstGroups(pre + CanonicalText(toks, texts) + post, toks) == Some(texts)
  {
    var R := CanonicalText(toks, texts);
    var s := pre + R + post;
    assert s[|pre|..] == R + post;
    ScanCanonical(toks, texts, post);
    SearchFinds(s, 0, |pre|, toks);
  }

  // --- the two patterns ---------------------------------------------------------------

  /** A row of literals fits before any token, and adds no group. */
  lemma LitsThen(w: string, toks: seq<Token>)
    requires Separated(toks)
    ensures Separated(Lits(w) + toks)
    ensures Groups(Lits(w) + toks) == Groups(toks)
    ensures |toks| > 0 ==> (Lits(w) + toks)[|w| + |toks| - 1] == toks[|toks| - 1]
  {
    var p := Lits(w) + toks;
    forall k | 0 <= k < |p| - 1 ensures FitsAt(p, k) {
      if k >= |w| {
        assert FitsAt(toks, k - |w|);
      }
    }
    LitsGroups(w, toks);
  }

  lemma {:induction false} LitsGroups(w: string, toks: seq<Token>)
    ensures Groups(Lits(w) + toks) == Groups(toks)
    decreases |w|
  {
    if w == [] {
      assert Lits(w) + toks == toks;
    } else {
      assert (Lits(w) + toks)[1..] == Lits(w[1..]) + toks;
      LitsGroups(w[1..], toks);
    }
  }

  /** After `HP:`: whitespace, group, whitespace, slash, whitespace, group. */
  const HpTail: seq<Token> := [Spaces, Digits, Spaces, Lit('/'), Spaces, Digits]

  const HpPattern: seq<Token> := Lits("HP:") + HpTail

  /** After `Gold Coins:`: whitespace, group. */
  const GoldTail: seq<Token> := [Spaces, Digits]

  const GoldPattern: seq<Token> := Lits("Gold Coins:") + GoldTail

  lemma HpTailShape()
    ensures Separated(HpTail) && Groups(HpTail) == 2
  {
    var p := HpTail;
    assert FitsAt(p, 0) && FitsAt(p, 1) && FitsAt(p, 2) && FitsAt(p, 3) && FitsAt(p, 4);
    assert p[1..][1..][1..][1..][1..][1..] == [];
  }

  lemma HpShape()
    ensures Separated(HpPattern) && Groups(HpPattern) == 2
    ensures HpPattern[0] == Lit('H') && HpPattern[|HpPattern| - 1] == Digits
  {
    HpTailShape();
    LitsThen("HP:", HpTail);
  }

  lemma GoldShape()
    ensures Separated(GoldPattern) && Groups(GoldPattern) == 1
    ensures GoldPattern[0] == Lit('G') && GoldPattern[|GoldPattern| - 1] == Digits
  {
    var p := GoldTail;
    assert FitsAt(p, 0);
    assert p[1..][1..] == [];
    LitsThen("Gold Coins:", GoldTail);
  }

  /** The character sheet's numbers. */
  datatype Stats = Stats(hp: int, maxHp: int, gold: int)

  /** What `update_stats_from_response` sets from a reply: the first HP match gives the
      current and maximum hit points, the first gold match the coins, each group read by
      `int()`; a pattern that is absent leaves its own fields as they were. */
  function ScrapeStats(text: string, prior: Stats): (r: Stats)
    ensures !Contains(text, "HP:") ==> r.hp == prior.hp && r.maxHp == prior.maxHp
    ensures !Contains(text, "Gold Coins:") ==> r.gold == prior.gold
  {
    HpShape();
    GoldShape();
    var hp := FirstGroups(text, HpPattern);
    var gold := FirstGroups(text, GoldPattern);
    assert hp.Some? ==> Contains(text, "HP:") by {
      if hp.Some? { SearchFindsLabel(text, "HP:", HpTail); }
    }
    assert gold.Some? ==> Contains(text, "Gold Coins:") by {
      if gold.Some? { SearchFindsLabel(text, "Gold Coins:", GoldTail); }
    }
    Stats(if hp.Some? then DigitsValue(hp.value[0]) else prior.hp,
          if hp.Some? then DigitsValue(hp.value[1]) else prior.maxHp,
          if gold.Some? then DigitsValue(gold.value[0]) else prior.gold)
  }

  /** `HP: a / b` as the narrator writes it. */
  function HpLine(hp: nat, maxHp: nat): string {
    HpShape();
    CanonicalText(HpPattern, [NatToString(hp), NatToString(maxHp)])
  }

  /** `Gold Coins: g` as the narrator writes it. */
  function GoldLine(gold: nat): string {
    GoldShape();
    CanonicalText(GoldPattern, [NatToString(gold)])
  }

  /** The first `HP: a / b` in a reply gives its two numbers, whatever follows, provided
      no digit is glued to the second number: no match starts in the text before it. */
  lemma HpRoundTrip(pre: string, hp: nat, maxHp: nat, post: string)
    requires forall j :: 0 <= j < |pre| ==> ScanAt(pre + HpLine(hp, maxHp) + post, j, HpPattern).None?
    requires post == [] || !IsDigit(post[0])
    ensures FirstGroups(pre + HpLine(hp, maxHp) + post, HpPattern)
         == Some([NatToString(hp), NatToString(maxHp)])
  {
    HpShape();
    assert HpLine(hp, maxHp) == CanonicalText(HpPattern, [NatToString(hp), NatToString(maxHp)]);
    FirstGroupsCanonical(pre, HpPattern, [NatToString(hp), NatToString(maxHp)], post);
  }

  /** The first `Gold Coins: g` in a reply gives its number, provided no digit is glued
      to it: no match starts in the text before it. */
  lemma GoldRoundTrip(pre: string, gold: nat, post: string)
    requires forall j :: 0 <= j < |pre| ==> ScanAt(pre + GoldLine(gold) + post, j, GoldPattern).None?
    requires post == [] || !IsDigit(post[0])
    ensures FirstGroups(pre + GoldLine(gold) + post, GoldPattern) == Some([NatToString(gold)])
  {
    GoldShape();
    assert GoldLine(gold) == CanonicalText(GoldPattern, [NatToString(gold)]);
    FirstGroupsCanonical(pre, GoldPattern, [NatToString(gold)], post);
  }

  /** The HP line has no `G` to start a gold match early. */
  lemma HpLineHasNoG(hp: nat, maxHp: nat)
    ensures 'G' !in HpLine(hp, maxHp)
  {
    HpShape();
    assert Lit('G') !in HpPattern by {
      forall k | 0 <= k < |HpPattern| ensures HpPattern[k] != Lit('G') {
        if k >= 3 {
          assert HpPattern[k] == HpTail[k - 3];
        }
      }
    }
    forall ch | ch in HpLine(hp, maxHp) ensures ch != 'G' {
      CanonicalChars(HpPattern, [NatToString(hp), NatToString(maxHp)], ch);
    }
  }

  /** A reply with a status: some text, `HP: a / b`, more text, `Gold Coins: g`, the rest. */
  function StatusReply(pre: string, hp: nat, maxHp: nat, mid: string, gold: nat, post: string): string {
    pre + HpLine(hp, maxHp) + mid + GoldLine(gold) + post
  }

  /** A reply whose status says `HP: a / b` and then `Gold Coins: g` sets the sheet to
      exactly those numbers, whatever it held before, provided no HP match starts before
      the HP line, no gold match starts in the text before the gold line, and no digit is
      glued to the numbers. */
  lemma StatsRoundTrip(pre: string, hp: nat, maxHp: nat, mid: string, gold: nat, post: string,
                       prior: Stats)
    requires forall j :: 0 <= j < |pre| ==>
      ScanAt(StatusReply(pre, hp, maxHp, mid, gold, post), j, HpPattern).None?
    requires forall j :: 0 <= j < |pre| ==>
      ScanAt(StatusReply(pre, hp, maxHp, mid, gold, post), j, GoldPattern).None?
    requires forall j :: |pre| + |HpLine(hp, maxHp)| <= j < |pre| + |HpLine(hp, maxHp)| + |mid| ==>
      ScanAt(StatusReply(pre, hp, maxHp, mid, gold, post), j, GoldPattern).None?
    requires mid == [] || !IsDigit(mid[0])
    requires post == [] || !IsDigit(post[0])
    ensures ScrapeStats(StatusReply(pre, hp, maxHp, mid, gold, post), prior) == Stats(hp, maxHp, gold)
  {
    var H := HpLine(hp, maxHp);
    var G := GoldLine(gold);
    var s := StatusReply(pre, hp, maxHp, mid, gold, post);
    assert s == pre + H + (mid + G + post);
    HpRoundTrip(pre, hp, maxHp, mid + G + post);
    assert s == (pre + H + mid) + G + post;
    forall j | |pre| <= j < |pre| + |H| ensures ScanAt(s, j, GoldPattern).None? {
      HpLineHasNoG(hp, maxHp);
      GoldShape();
      assert s[j..][0] == H[j - |pre|];
      LitMismatch(s[j..], GoldPattern);
    }
    GoldRoundTrip(pre + H + mid, gold, post);
  }
}

=== FILE: strings.dfy ===
/** The Python string built-ins that the game's code leans on, written out:
    the `\d` and `\s` character classes, `str(int)`, `int(str)`, `str.strip`,
    `str.lower`, `str.split`, `str.join`, `str.replace` and `sum`. */
module Strings {

  datatype Option<+T> = None | Some(value: T)

  /** `\d` restricted to the ASCII digits. */
  predicate IsDigit(c: char) {
    '0' <= c <= '9'
  }

  /** Python's `str.isspace`; the same table drives `\s` and `str.strip()`. */
  predicate IsSpace(c: char) {
    ('\t' <= c <= '\r') || ('\U{1C}' <= c <= ' ') || c == '\U{85}' || c == '\U{A0}'
    || c == '\U{1680}' || ('\U{2000}' <= c <= '\U{200A}') || c == '\U{2028}' || c == '\U{2029}'
    || c == '\U{202F}' || c == '\U{205F}' || c == '\U{3000}'
  }

  predicate AllDigits(s: string) {
    forall k :: 0 <= k < |s| ==> IsDigit(s[k])
  }

  /** Length of the longest run of digits starting at `i`: what a greedy `\d*` consumes. */
  function DigitRun(s: string, i: nat): (n: nat)
    requires i <= |s|
    ensures i + n <= |s|
    ensures forall k :: i <= k < i + n ==> IsDigit(s[k])
    ensures i + n == |s| || !IsDigit(s[i + n])
    decreases |s| - i
  {
    if i < |s| && IsDigit(s[i]) then 1 + DigitRun(s, i + 1) else 0
  }

  /** A digit run is determined by where it stops. */
  lemma {:induction false} DigitRunIs(s: string, i: nat, n: nat)
    requires i + n <= |s|
    requires forall k :: i <= k < i + n ==> IsDigit(s[k])
    requires i + n == |s| || !IsDigit(s[i + n])
    ensures DigitRun(s, i) == n
    decreases n
  {
    if n > 0 {
      DigitRunIs(s, i + 1, n - 1);
    }
  }

  /** The digit run at `i` is the digit block `s[i..i + n]` when no digit follows it. */
  lemma DigitRunOver(s: string, i: nat, n: nat)
    requires i + n <= |s| && AllDigits(s[i..i + n])
    requires i + n == |s| || !IsDigit(s[i + n])
    ensures DigitRun(s, i) == n
  {
    forall k | i <= k < i + n ensures IsDigit(s[k]) {
      assert s[k] == s[i..i + n][k - i];
    }
    DigitRunIs(s, i, n);
  }

  function DigitValue(c: char): (v: nat)
    requires IsDigit(c)
    ensures v < 10
  {
    (c as int) - ('0' as int)
  }

  function DigitChar(d: nat): (c: char)
    requires d < 10
    ensures IsDigit(c) && DigitValue(c) == d
  {
    ('0' as int + d) as char
  }

  /** `int(s)` for a string of ASCII digits; leading zeros are allowed, as in base 10. */
  function DigitsValue(s: string): nat
    requires AllDigits(s)
  {
    if |s| == 0 then 0 else 10 * DigitsValue(s[..|s| - 1]) + DigitValue(s[|s| - 1])
  }

  /** `str(n)` for a natural number: canonical decimal, read back by `DigitsValue`. */
  function NatToString(n: nat): (r: string)
    ensures |r| > 0 && AllDigits(r)
    ensures r[0] == '0' ==> r == "0"
    ensures DigitsValue(r) == n
  {
    if n < 10 then [DigitChar(n)]
    else
      var p := NatToString(n / 10);
      var r := p + [DigitChar(n % 10)];
      assert r[..|r| - 1] == p;
      r
  }

  /** `str(i)` for any integer. */
  function IntToString(i: int): (r: string)
    ensures |r| > 0
    ensures r[0] == '-' <==> i < 0
    ensures forall k :: 0 < k < |r| ==> IsDigit(r[k])
    ensures i >= 0 ==> AllDigits(r)
  {
    if i < 0 then "-" + NatToString(-i) else NatToString(i)
  }

  /** `str(i)` is made of digits and at most a leading minus sign. */
  lemma IntToStringChars(i: int)
    ensures forall c :: c in IntToString(i) ==> c == '-' || IsDigit(c)
  {
    var r := IntToString(i);
    forall c | c in r ensures c == '-' || IsDigit(c) {
      var q :| 0 <= q < |r| && r[q] == c;
      if i >= 0 { assert IsDigit(r[q]); }
    }
  }

  /** Python's `str.lower()` on ASCII letters; every other character is kept. */
  function LowerChar(c: char): char {
    if 'A' <= c <= 'Z' then (c as int + 32) as char else c
  }

  function Lower(s: string): (r: string)
    ensures |r| == |s| && forall k :: 0 <= k < |s| ==> r[k] == LowerChar(s[k])
  {
    seq(|s|, k requires 0 <= k < |s| => LowerChar(s[k]))
  }

  function LStrip(s: string): (r: string)
    ensures |r| <= |s| && r == s[|s| - |r|..]
    ensures forall k :: 0 <= k < |s| - |r| ==> IsSpace(s[k])
    ensures r == [] || !IsSpace(r[0])
  {
    if |s| > 0 && IsSpace(s[0]) then LStrip(s[1..]) else s
  }

  function RStrip(s: string): (r: string)
    ensures |r| <= |s| && r == s[..|r|]
    ensures forall k :: |r| <= k < |s| ==> IsSpace(s[k])
    ensures r == [] || !IsSpace(r[|r| - 1])
  {
    if |s| > 0 && IsSpace(s[|s| - 1]) then RStrip(s[..|s| - 1]) else s
  }

  /** How many whitespace characters `str.strip()` removes at the front. */
  function StripOffset(s: string): (i: nat)
    ensures i <= |s| && forall k :: 0 <= k < i ==> IsSpace(s[k])
  {
    |s| - |LStrip(s)|
  }

  /** Python's `str.strip()` with no argument: the middle of `s` with the
      whitespace at both ends removed. */
  function Strip(s: string): (r: string)
    ensures StripOffset(s) + |r| <= |s| && r == s[StripOffset(s)..StripOffset(s) + |r|]
    ensures forall k :: StripOffset(s) + |r| <= k < |s| ==> IsSpace(s[k])
    ensures r == [] || (!IsSpace(r[0]) && !IsSpace(r[|r| - 1]))
    ensures (s == [] || (!IsSpace(s[0]) && !IsSpace(s[|s| - 1]))) ==> r == s
  {
    RStrip(LStrip(s))
  }

  /** The digits with single underscores between them that `int()` accepts
      after its optional sign. */
  predicate IsGroupedDigits(u: string) {
    && |u| > 0 && IsDigit(u[0]) && IsDigit(u[|u| - 1])
    && DigitsOrUnderscores(u)
    && forall k :: 0 <= k < |u| - 1 ==> !(u[k] == '_' && u[k + 1] == '_')
  }

  predicate DigitsOrUnderscores(u: string) {
    forall k :: 0 <= k < |u| ==> IsDigit(u[k]) || u[k] == '_'
  }

  function DropUnderscores(u: string): (r: string)
    requires DigitsOrUnderscores(u)
    ensures AllDigits(r)
    ensures AllDigits(u) ==> r == u
  {
    if |u| == 0 then []
    else if u[0] == '_' then DropUnderscores(u[1..])
    else [u[0]] + DropUnderscores(u[1..])
  }

  /** The digits-and-underscores part of `int()`'s syntax, without sign. */
  function ParseGrouped(u: string): (r: Option<nat>)
    ensures AllDigits(u) && |u| > 0 ==> r == Some(DigitsValue(u))
  {
    if IsGroupedDigits(u) then Some(DigitsValue(DropUnderscores(u))) else None
  }

  /** `int()`'s syntax after whitespace is stripped: an optional sign, then grouped digits. */
  function ParseSigned(t: string): Option<int> {
    if |t| > 0 && (t[0] == '+' || t[0] == '-') then
      match ParseGrouped(t[1..])
      case None => None
      case Some(v) => Some(if t[0] == '-' then -(v as int) else v)
    else
      match ParseGrouped(t)
      case None => None
      case Some(v) => Some(v)
  }

  /** The whitespace `int()` skips around its number. CPython maps non-ASCII
      whitespace to a space but passes ASCII characters through and then skips only
      `\t`..`\r` and the space, so the separators U+001C..U+001F, which `str.isspace`
      counts, are not skipped. */
  predicate IsIntSpace(c: char) {
    IsSpace(c) && !('\U{1C}' <= c <= '\U{1F}')
  }

  /** The middle of `s` once `int()`'s whitespace is removed at both ends. */
  function IntStrip(s: string): (r: string)
    ensures r == [] || (!IsIntSpace(r[0]) && !IsIntSpace(r[|r| - 1]))
    ensures (s == [] || (!IsIntSpace(s[0]) && !IsIntSpace(s[|s| - 1]))) ==> r == s
    decreases |s|
  {
    if |s| > 0 && IsIntSpace(s[0]) then IntStrip(s[1..])
    else if |s| > 0 && IsIntSpace(s[|s| - 1]) then IntStrip(s[..|s| - 1])
    else s
  }

  /** Python's `int(s)` in base 10: surrounding whitespace, an optional sign,
      digits grouped by single underscores; `None` where Python raises ValueError.
      A non-empty run of ASCII digits reads as its decimal value. */
  function PyInt(s: string): (r: Option<int>)
    ensures |s| > 0 && AllDigits(s) ==> r == Some(DigitsValue(s))
  {
    assert |s| > 0 && AllDigits(s) ==> IntStrip(s) == s by {
      if |s| > 0 && AllDigits(s) {
        assert IsDigit(s[0]) && IsDigit(s[|s| - 1]);
      }
    }
    ParseSigned(IntStrip(s))
  }

  /** The text `str(i)` neither starts nor ends with whitespace. */
  lemma IntToStringUnpadded(i: int)
    ensures var r := IntToString(i);
      |r| > 0 && !IsSpace(r[0]) && !IsSpace(r[|r| - 1]) && r[0] != '+'
  {
    var r := IntToString(i);
    assert r[0] == '-' || IsDigit(r[0]);
    assert IsDigit(r[|r| - 1]);
  }

  /** `int()` skips its own whitespace on both sides of a number. */
  lemma IntSkipsSpace(w: char, i: int)
    requires IsIntSpace(w)
    ensures PyInt([w] + IntToString(i) + [w]) == Some(i)
  {
    var r := IntToString(i);
    IntToStringUnpadded(i);
    IntRoundTrip(i);
    var padded := [w] + r + [w];
    assert padded[1..] == r + [w];
    assert (r + [w])[..|r + [w]| - 1] == r;
    assert IntStrip(r + [w]) == IntStrip(r) == r;
  }

  /** `strip()` removes a leading separator among U+001C..U+001F. */
  lemma StripSkipsSeparator(c: char, i: int)
    requires '\U{1C}' <= c <= '\U{1F}'
    ensures Strip([c] + IntToString(i)) == IntToString(i)
  {
    var r := IntToString(i);
    IntToStringUnpadded(i);
    var led := [c] + r;
    assert led[1..] == r;
    assert LStrip(led) == LStrip(r) == r;
  }

  /** `int()`, unlike `strip()`, does not skip the separators U+001C..U+001F: a number
      led by one of them is rejected. */
  lemma IntRejectsSeparator(c: char, i: int)
    requires '\U{1C}' <= c <= '\U{1F}'
    ensures PyInt([c] + IntToString(i)).None?
  {
    var r := IntToString(i);
    IntToStringUnpadded(i);
    var led := [c] + r;
    assert IntStrip(led) == led;
    assert !IsDigit(led[0]) && led[0] != '+' && led[0] != '-';
  }

  /** `int(str(i)) == i` for every integer. */
  lemma IntRoundTrip(i: int)
    ensures PyInt(IntToString(i)) == Some(i)
  {
    var r := IntToString(i);
    IntToStringUnpadded(i);
    assert IntStrip(r) == r;
    if i < 0 {
      assert r[1..] == NatToString(-i);
    }
  }

  /** `s[k..k+|t|] == t`. */
  predicate OccursAt(s: string, t: string, k: int) {
    0 <= k && k + |t| <= |s| && s[k..k + |t|] == t
  }

  /** Python's `t in s`. */
  ghost predicate Contains(s: string, t: string) {
    exists k :: OccursAt(s, t, k)
  }

  /** Python's `s.find(t, from)`: the leftmost occurrence at or after `from`. */
  function Find(s: string, t: string, from: nat): (r: Option<nat>)
    requires from <= |s|
    ensures r.Some? ==> from <= r.value && OccursAt(s, t, r.value)
    ensures r.Some? ==> forall k :: from <= k < r.value ==> !OccursAt(s, t, k)
    ensures r.None? ==> forall k :: from <= k ==> !OccursAt(s, t, k)
    decreases |s| - from
  {
    if OccursAt(s, t, from) then Some(from)
    else if from + |t| >= |s| then None
    else Find(s, t, from + 1)
  }

  /** Python's `s.replace(pat, rep)`: every non-overlapping occurrence of `pat`,
      scanning left to right, is replaced by `rep`. */
  function ReplaceAll(s: string, pat: string, rep: string): string
    requires |pat| > 0
    decreases |s|
  {
    match Find(s, pat, 0)
    case None => s
    case Some(i) => s[..i] + rep + ReplaceAll(s[i + |pat|..], pat, rep)
  }

  /** Without an occurrence the replacement changes nothing. */
  lemma ReplaceAllNone(s: string, pat: string, rep: string)
    requires |pat| > 0 && Find(s, pat, 0).None?
    ensures ReplaceAll(s, pat, rep) == s
  {
  }

  /** The replacement after its first occurrence. */
  lemma ReplaceAllFirst(s: string, pat: string, rep: string)
    requires |pat| > 0 && Find(s, pat, 0).Some?
    ensures ReplaceAll(s, pat, rep)
         == s[..Find(s, pat, 0).value] + rep + ReplaceAll(s[Find(s, pat, 0).value + |pat|..], pat, rep)
  {
  }

  /** Python's `s.split(sep)` for a non-empty separator. */
  function Split(s: string, sep: string): (parts: seq<string>)
    requires |sep| > 0
    ensures |parts| > 0
    ensures forall k :: 0 <= k < |parts| ==> !Contains(parts[k], sep)
    decreases |s|
  {
    match Find(s, sep, 0)
    case None => [s]
    case Some(i) =>
      PrefixBeforeFirst(s, sep, i);
      [s[..i]] + Split(s[i + |sep|..], sep)
  }

  /** The pieces after the first occurrence of the separator. */
  lemma SplitFirst(s: string, sep: string)
    requires |sep| > 0 && Find(s, sep, 0).Some?
    ensures Split(s, sep)
         == [s[..Find(s, sep, 0).value]] + Split(s[Find(s, sep, 0).value + |sep|..], sep)
  {
  }

  /** A text is what precedes an occurrence, the occurrence, and what follows it. */
  lemma AroundOccurrence(s: string, t: string, i: nat)
    requires OccursAt(s, t, i)
    ensures s == s[..i] + t + s[i + |t|..]
  {
    assert s == s[..i] + s[i..i + |t|] + s[i + |t|..];
  }

  /** The text before the leftmost occurrence holds no occurrence. */
  lemma PrefixBeforeFirst(s: string, t: string, i: nat)
    requires |t| > 0 && i <= |s|
    requires forall k :: 0 <= k < i ==> !OccursAt(s, t, k)
    ensures !Contains(s[..i], t)
  {
    forall k | OccursAt(s[..i], t, k) ensures false {
      assert s[..i][k..k + |t|] == s[k..k + |t|];
      assert OccursAt(s, t, k);
    }
  }

  /** Splitting on a character that occurs exactly once gives the text on either side. */
  lemma SplitOnce(a: string, c: char, b: string)
    requires c !in a && c !in b
    ensures Split(a + [c] + b, [c]) == [a, b]
  {
    var s := a + [c] + b;
    assert OccursAt(s, [c], |a|);
    forall k | 0 <= k < |a| ensures !OccursAt(s, [c], k) {
      assert s[k] == a[k];
    }
    forall k | 0 <= k ensures !OccursAt(b, [c], k) {
      if k < |b| { assert b[k] != c; }
    }
    assert Find(s, [c], 0) == Some(|a|);
    assert s[..|a|] == a && s[|a| + 1..] == b;
    assert Find(b, [c], 0) == None;
  }

  /** Python's `sep.join(parts)`. */
  function Join(parts: seq<string>, sep: string): string {
    if |parts| == 0 then []
    else if |parts| == 1 then parts[0]
    else parts[0] + sep + Join(parts[1..], sep)
  }

  lemma JoinCons(a: string, parts: seq<string>, sep: string)
    requires |parts| > 0
    ensures Join([a] + parts, sep) == a + sep + Join(parts, sep)
  {
    assert ([a] + parts)[1..] == parts;
  }

  /** A text that splits into two pieces is the two pieces around the separator. */
  lemma SplitTwo(s: string, sep: string)
    requires |sep| > 0 && |Split(s, sep)| == 2
    ensures s == Split(s, sep)[0] + sep + Split(s, sep)[1]
  {
    var parts := Split(s, sep);
    SplitJoinRestores(s, sep);
    assert Join(parts, sep) == parts[0] + sep + Join(parts[1..], sep);
  }

  /** Joining the pieces of `s.split(pat)` with `pat` gives back `s`. */
  lemma {:induction false} SplitJoinRestores(s: string, pat: string)
    requires |pat| > 0
    ensures s == Join(Split(s, pat), pat)
    decreases |s|
  {
    if Find(s, pat, 0).Some? {
      var i := Find(s, pat, 0).value;
      var rest := s[i + |pat|..];
      SplitJoinRestores(rest, pat);
      SplitFirst(s, pat);
      JoinCons(s[..i], Split(rest, pat), pat);
      AroundOccurrence(s, pat, i);
    }
  }

  /** `s.replace(pat, rep)` is `rep.join(s.split(pat))`: with `SplitJoinRestores`,
      the pieces between occurrences are kept verbatim and only the occurrences change. */
  lemma {:induction false} ReplaceAllIsSplitJoin(s: string, pat: string, rep: string)
    requires |pat| > 0
    ensures ReplaceAll(s, pat, rep) == Join(Split(s, pat), rep)
    decreases |s|
  {
    if Find(s, pat, 0).Some? {
      var i := Find(s, pat, 0).value;
      var rest := s[i + |pat|..];
      ReplaceAllIsSplitJoin(rest, pat, rep);
      SplitFirst(s, pat);
      ReplaceAllFirst(s, pat, rep);
      JoinCons(s[..i], Split(rest, pat), rep);
    } else {
      ReplaceAllNone(s, pat, rep);
    }
  }

  /** `rep` cannot start or end an occurrence of `pat` and holds a character foreign to it. */
  predicate Breaks(rep: string, pat: string) {
    && |pat| > 0 && pat[0] !in rep && pat[|pat| - 1] !in rep
    && exists j :: 0 <= j < |rep| && rep[j] !in pat
  }

  /** Gluing occurrence-free text on both sides of such a `rep` creates no occurrence. */
  lemma GlueAround(a: string, rep: string, r: string, pat: string)
    requires Breaks(rep, pat)
    requires !Contains(a, pat) && !Contains(r, pat)
    ensures !Contains(a + rep + r, pat)
  {
    var res := a + rep + r;
    var L := |pat|;
    forall k | 0 <= k && k + L <= |res| ensures !OccursAt(res, pat, k) {
      if k + L <= |a| {
        assert res[k..k + L] == a[k..k + L];
        assert !OccursAt(a, pat, k);
      } else if k >= |a| + |rep| {
        assert res[k..k + L] == r[k - |a| - |rep|..k - |a| - |rep| + L];
        assert !OccursAt(r, pat, k - |a| - |rep|);
      } else if k >= |a| {
        assert res[k] == rep[k - |a|];
      } else if k + L <= |a| + |rep| {
        assert res[k + L - 1] == rep[k + L - 1 - |a|];
      } else {
        var j :| 0 <= j < |rep| && rep[j] !in pat;
        assert res[|a| + j] == rep[j];
        assert res[k..k + L][|a| + j - k] == res[|a| + j];
      }
    }
  }

  /** A prefix of a suffix is a slice. */
  lemma PrefixOfSuffix(s: string, a: nat, n: nat)
    requires a + n <= |s|
    ensures s[a..][..n] == s[a..a + n]
  {
    forall k | 0 <= k < n ensures s[a..][..n][k] == s[a..a + n][k] {
      assert s[a..][..n][k] == s[a + k];
    }
  }

  /** A slice of a prefix is a slice. */
  lemma PrefixSlice(s: string, i: nat, q: nat, e: nat)
    requires q <= e <= i <= |s|
    ensures s[..i][q..e] == s[q..e]
  {
    forall k | 0 <= k < e - q ensures s[..i][q..e][k] == s[q..e][k] {
      assert s[..i][q..e][k] == s[q + k];
    }
  }

  /** A slice of a suffix is a slice. */
  lemma SuffixSlice(s: string, a: nat, q: nat, e: nat)
    requires a <= q <= e <= |s|
    ensures s[a..][q - a..e - a] == s[q..e]
  {
    forall k | 0 <= k < e - q ensures s[a..][q - a..e - a][k] == s[q..e][k] {
      assert s[a..][q - a..e - a][k] == s[q + k];
    }
  }

  /** A slice of a slice is a slice of the original. */
  lemma SliceOfSlice(s: string, a: nat, b: nat, c: nat, d: nat)
    requires a <= b <= |s| && c <= d <= b - a
    ensures s[a..b][c..d] == s[a + c..a + d]
  {
    var x := s[a..b][c..d];
    forall k | 0 <= k < |x| ensures x[k] == s[a + c..a + d][k] {
      assert x[k] == s[a..b][c + k] == s[a + c + k];
    }
  }

  /** A non-empty slice is its first character followed by the rest. */
  lemma ConsSlice(s: string, i: nat, j: nat)
    requires i < j <= |s|
    ensures s[i..j] == [s[i]] + s[i + 1..j]
  {
  }

  /** An occurrence in the left part of a concatenation stays an occurrence. */
  lemma ContainsBefore(a: string, rep: string, r: string, m: string, q: nat)
    requires q + |m| <= |a| && a[q..q + |m|] == m
    ensures Contains(a + rep + r, m)
  {
    assert (a + rep + r)[q..q + |m|] == a[q..q + |m|];
    assert OccursAt(a + rep + r, m, q);
  }

  /** An occurrence in the right part of a concatenation stays an occurrence. */
  lemma ContainsAfter(a: string, rep: string, r: string, m: string)
    requires Contains(r, m)
    ensures Contains(a + rep + r, m)
  {
    var k :| OccursAt(r, m, k);
    var n := |a| + |rep|;
    assert (a + rep + r)[n + k..n + k + |m|] == r[k..k + |m|];
    assert OccursAt(a + rep + r, m, n + k);
  }

  /** After `s.replace(pat, rep)` no occurrence of `pat` is left, provided `rep`
      cannot start or end one and holds a character foreign to `pat`. */
  lemma {:induction false} ReplaceAllRemoves(s: string, pat: string, rep: string)
    requires Breaks(rep, pat)
    ensures !Contains(ReplaceAll(s, pat, rep), pat)
    decreases |s|
  {
    if Find(s, pat, 0).Some? {
      var i := Find(s, pat, 0).value;
      var rest := s[i + |pat|..];
      ReplaceAllRemoves(rest, pat, rep);
      PrefixBeforeFirst(s, pat, i);
      GlueAround(s[..i], rep, ReplaceAll(rest, pat, rep), pat);
      ReplaceAllFirst(s, pat, rep);
    } else {
      ReplaceAllNone(s, pat, rep);
    }
  }

  /** Python's `sum(xs)`. */
  function Sum(xs: seq<int>): int {
    if |xs| == 0 then 0 else xs[0] + Sum(xs[1..])
  }

  /** A sum of `n` values each in `[lo, hi]` lies in `[n*lo, n*hi]`. */
  lemma {:induction false} SumBounds(xs: seq<int>, lo: int, hi: int)
    requires forall k :: 0 <= k < |xs| ==> lo <= xs[k] <= hi
    ensures |xs| * lo <= Sum(xs) <= |xs| * hi
  {
    if |xs| > 0 {
      SumBounds(xs[1..], lo, hi);
    }
  }

  /** Number of occurrences of the character `c` in `s`. */
  function CountChar(s: string, c: char): nat {
    if |s| == 0 then 0 else (if s[0] == c then 1 else 0) + CountChar(s[1..], c)
  }

  lemma {:induction false} CountCharAppend(a: string, b: string, c: char)
    ensures CountChar(a + b, c) == CountChar(a, c) + CountChar(b, c)
  {
    if |a| > 0 {
      assert (a + b)[1..] == a[1..] + b;
      CountCharAppend(a[1..], b, c);
    } else {
      assert a + b == b;
    }
  }

  /** Splitting on a one-character separator gives one more piece than there
      are separators. */
  lemma {:induction false} SplitCount(s: string, c: char)
    ensures |Split(s, [c])| == CountChar(s, c) + 1
    decreases |s|
  {
    match Find(s, [c], 0)
    case None =>
      if CountChar(s, c) != 0 {
        var k := FirstIndexOf(s, c);
        assert OccursAt(s, [c], k);
      }
    case Some(i) =>
      var rest := s[i + 1..];
      SplitCount(rest, c);
      assert s == s[..i] + [c] + rest;
      CountCharAppend(s[..i] + [c], rest, c);
      CountCharAppend(s[..i], [c], c);
      if CountChar(s[..i], c) != 0 {
        var k := FirstIndexOf(s[..i], c);
        assert OccursAt(s, [c], k);
      }
  }

  /** An index holding `c`, given that `c` occurs. */
  lemma {:induction false} FirstIndexOf(s: string, c: char) returns (k: nat)
    requires CountChar(s, c) != 0
    ensures k < |s| && s[k] == c
  {
    if s[0] == c {
      k := 0;
    } else {
      k := FirstIndexOf(s[1..], c);
      k := k + 1;
    }
  }
}

=== FILE: web_app.dfy ===
/** The web front end's per-browser session: the chat log, the roll waiting for its
    button, and a character sheet whose hit points and gold are read once from the
    narrator's first reply. Every narrator reply leaves pending exactly the first roll
    marker it holds, or none. */
module WebApp {
  import opened Strings
  import opened Notation
  import opened RollMarker
  import opened DiceRoller
  import opened Chatbot
  import opened StatsScrape

  datatype Role = User | Assistant

  datatype ChatMessage = ChatMessage(role: Role, content: string)

  const DefaultStats: Stats := Stats(100, 100, 50)

  /** The session id every browser session uses with the game master. */
  const WebSessionId: string := "streamlit_session"

  /** The player's message after pressing the roll button, `f"Rolled {N}d{S} → {r}"`. */
  function RollInput(d: Dice, total: int): string {
    "Rolled " + Format(d) + " → " + IntToString(total)
  }

  /** The roll message holds no marker, so the game master forwards it as it is and
      never asks for another roll because of it. */
  lemma RollInputIsPlain(d: Dice, total: int)
    ensures FirstMarker(RollInput(d, total)).None?
    ensures Decide(RollInput(d, total), None) == Forward(RollInput(d, total), "")
  {
    FormatChars(d);
    IntToStringChars(total);
    var f := Format(d);
    var i := IntToString(total);
    assert '[' !in f && '[' !in i;
    assert RollInput(d, total) == "Rolled " + f + " → " + i;
    NoBracketNoMarker(RollInput(d, total));
  }

  /** A roll button's total lies between the number of dice and that number times the
      sides. */
  lemma RollButtonTotal(d: Dice, draws: seq<int>)
    requires DrawsFor(d, draws) && !(d.count > 0 && d.sides == 0)
    ensures d.count <= Sum(draws) <= d.count * d.sides
  {
    SumBounds(draws, 1, d.sides);
  }

  /** The first prompt sent when the adventure starts. */
  function FirstPrompt(name: string, className: string, backstory: string): string {
    "My name is " + name + ", I am a " + className + ". " + backstory
  }

  /** The log opens and ends with the narrator, and no two neighbours have the same
      role: narrator and player take turns. */
  predicate Alternates(msgs: seq<ChatMessage>) {
    msgs == [] ||
    (&& msgs[0].role == Assistant && msgs[|msgs| - 1].role == Assistant
     && forall k :: 0 < k < |msgs| ==> msgs[k].role != msgs[k - 1].role)
  }

  /** What the script leaves consistent after every run: the log alternates, the
      pending roll is the first marker of the last reply, and the sheet holds what the
      first reply said, because the scrape runs once. */
  ghost predicate SessionLog(msgs: seq<ChatMessage>, pending: Option<Dice>, sheet: Stats) {
    && Alternates(msgs)
    && pending == (if |msgs| == 0 then None else PendingFrom(msgs[|msgs| - 1].content))
    && sheet == (if |msgs| == 0 then DefaultStats else ScrapeStats(msgs[0].content, DefaultStats))
  }

  /** The narrator's opening reply starts a consistent log. */
  lemma OpeningLog(reply: string)
    ensures SessionLog([ChatMessage(Assistant, reply)], PendingFrom(reply), ScrapeStats(reply, DefaultStats))
  {
  }

  /** A player message and its answer keep the log consistent: the answer decides the
      pending roll and the sheet stays as the opening reply left it. */
  lemma ExtendLog(msgs: seq<ChatMessage>, pending: Option<Dice>, sheet: Stats, input: string, reply: string)
    requires SessionLog(msgs, pending, sheet) && msgs != []
    ensures SessionLog(msgs + [ChatMessage(User, input), ChatMessage(Assistant, reply)], PendingFrom(reply), sheet)
  {
    var ext := msgs + [ChatMessage(User, input), ChatMessage(Assistant, reply)];
    assert ext[0] == msgs[0] && ext[|ext| - 1].content == reply;
  }

  /** `st.session_state` for one browser session. */
  class WebSession {
    const chatbot: Chatbot
    const sessionId: string
    var messages: seq<ChatMessage>
    var characterCreated: bool
    var initialStoryShown: bool
    var hp: int
    var maxHp: int
    var gold: int
    var pendingRoll: Option<Dice>
    var statsParsed: bool
    var charName: string
    var charClass: string
    var charBackstory: string

    function Sheet(): Stats
      reads this
    {
      Stats(hp, maxHp, gold)
    }

    /** The shape every completed script run leaves behind: before the adventure
        nothing has happened; after it the log starts with the narrator and alternates,
        ending with the narrator; the pending roll is the first marker of the last
        reply; and the sheet holds what the first reply said, because the scrape runs
        once. */
    ghost predicate Valid()
      reads this
    {
      && sessionId == WebSessionId
      && statsParsed == characterCreated && initialStoryShown == characterCreated
      && (characterCreated <==> |messages| > 0)
      && SessionLog(messages, pendingRoll, Sheet())
      && (characterCreated ==> charName != "" && charClass != "" && charBackstory != "")
    }

    /** The session initialisation, with the game master built over `chain`. */
    constructor(chain: Chain)
      ensures Valid() && fresh(chatbot)
      ensures chatbot.chain == chain && chatbot.chatHistories == map[]
      ensures messages == [] && !characterCreated && pendingRoll.None? && !statsParsed
      ensures Sheet() == DefaultStats
    {
      chatbot := new Chatbot(chain);
      sessionId := WebSessionId;
      messages := [];
      characterCreated := false;
      initialStoryShown := false;
      hp := 100;
      maxHp := 100;
      gold := 50;
      pendingRoll := None;
      statsParsed := false;
      charName := "";
      charClass := "";
      charBackstory := "";
    }

    /** `update_stats_from_response`: read the sheet from the reply unless that was
        already done. */
    method UpdateStatsFromResponse(text: string)
      modifies this
      ensures old(statsParsed) ==> Sheet() == old(Sheet())
      ensures !old(statsParsed) ==> Sheet() == ScrapeStats(text, old(Sheet()))
      ensures statsParsed
      ensures messages == old(messages) && pendingRoll == old(pendingRoll)
      ensures characterCreated == old(characterCreated) && initialStoryShown == old(initialStoryShown)
      ensures charName == old(charName) && charClass == old(charClass) && charBackstory == old(charBackstory)
    {
      if statsParsed {
        return;
      }
      HpShape();
      GoldShape();
      var h := FirstGroups(text, HpPattern);
      if h.Some? {
        hp := DigitsValue(h.value[0]);
        maxHp := DigitsValue(h.value[1]);
      }
      var g := FirstGroups(text, GoldPattern);
      if g.Some? {
        gold := DigitsValue(g.value[0]);
      }
      statsParsed := true;
    }

    /** What follows every narrator reply: log it, read the sheet, and leave pending
        the first marker of the reply. */
    method AcceptReply(reply: string)
      modifies this
      ensures messages == old(messages) + [ChatMessage(Assistant, reply)]
      ensures old(statsParsed) ==> Sheet() == old(Sheet())
      ensures !old(statsParsed) ==> Sheet() == ScrapeStats(reply, old(Sheet()))
      ensures statsParsed && pendingRoll == PendingFrom(reply)
      ensures characterCreated == old(characterCreated) && initialStoryShown == old(initialStoryShown)
      ensures charName == old(charName) && charClass == old(charClass) && charBackstory == old(charBackstory)
    {
      messages := messages + [ChatMessage(Assistant, reply)];
      UpdateStatsFromResponse(reply);
      var found := FirstMarker(reply);
      if found.Some? {
        pendingRoll := Some(found.value.dice);
      } else {
        pendingRoll := None;
      }
    }

    /** "Start Adventure": with all three fields filled, create the character and log
        the narrator's opening; otherwise only warn. */
    method StartAdventure(name: string, className: string, backstory: string) returns (warned: bool)
      requires Valid() && !characterCreated
      modifies this, chatbot
      ensures Valid()
      ensures warned <==> name == "" || className == "" || backstory == ""
      ensures warned ==>
        (messages == old(messages) && !characterCreated
         && chatbot.chatHistories == old(chatbot.chatHistories)
         && charName == old(charName) && charClass == old(charClass) && charBackstory == old(charBackstory))
      ensures !warned ==>
        && characterCreated && charName == name && charClass == className && charBackstory == backstory
        && |messages| == 1 && messages[0].role == Assistant
        && messages[0].content == Respond(chatbot.chain, old(chatbot.chatHistories), sessionId,
                                          FirstPrompt(name, className, backstory), None).reply
        && chatbot.chatHistories == Respond(chatbot.chain, old(chatbot.chatHistories), sessionId,
                                            FirstPrompt(name, className, backstory), None).histories
        && pendingRoll == PendingFrom(messages[0].content)
        && Sheet() == ScrapeStats(messages[0].content, DefaultStats)
    {
      if name == "" || className == "" || backstory == "" {
        return true;
      }
      charName := name;
      charClass := className;
      charBackstory := backstory;
      characterCreated := true;
      var reply := chatbot.Interact(FirstPrompt(name, className, backstory), sessionId, None);
      assert Sheet() == DefaultStats && !statsParsed && messages == [];
      AcceptReply(reply);
      assert messages == [ChatMessage(Assistant, reply)];
      OpeningLog(reply);
      initialStoryShown := true;
      warned := false;
    }

    /** A player turn, as both the roll button and the chat input take it: log the
        player's message, ask the narrator, and accept the reply. */
    method PlayerTurn(input: string)
      requires Valid() && characterCreated
      modifies this, chatbot
      ensures Valid() && characterCreated
      ensures messages
           == old(messages) + [ChatMessage(User, input),
                               ChatMessage(Assistant,
                                           Respond(chatbot.chain, old(chatbot.chatHistories), sessionId,
                                                   input, None).reply)]
      ensures chatbot.chatHistories
           == Respond(chatbot.chain, old(chatbot.chatHistories), sessionId, input, None).histories
      ensures Sheet() == old(Sheet())
      ensures charName == old(charName) && charClass == old(charClass) && charBackstory == old(charBackstory)
    {
      messages := messages + [ChatMessage(User, input)];
      var reply := chatbot.Interact(input, sessionId, None);
      AcceptReply(reply);
      assert messages == old(messages) + [ChatMessage(User, input), ChatMessage(Assistant, reply)];
      ExtendLog(old(messages), old(pendingRoll), old(Sheet()), input, reply);
    }

    /** The roll button for the pending dice, with the draws `randint` makes: dice
        without sides raise before anything changes; otherwise the total is logged as
        the player's message and answered by the narrator. */
    method RollDice(draws: seq<int>) returns (raised: bool, total: int)
      requires Valid() && characterCreated && pendingRoll.Some?
      requires DrawsFor(pendingRoll.value, draws)
      modifies this, chatbot
      ensures Valid()
      ensures raised <==> old(pendingRoll).value.count > 0 && old(pendingRoll).value.sides == 0
      ensures raised ==>
        (messages == old(messages) && pendingRoll == old(pendingRoll)
         && chatbot.chatHistories == old(chatbot.chatHistories))
      ensures !raised ==>
        && total == Sum(draws)
        && old(pendingRoll).value.count <= total <= old(pendingRoll).value.count * old(pendingRoll).value.sides
        && messages
           == old(messages) + [ChatMessage(User, RollInput(old(pendingRoll).value, total)),
                               ChatMessage(Assistant,
                                           Respond(chatbot.chain, old(chatbot.chatHistories), sessionId,
                                                   RollInput(old(pendingRoll).value, total), None).reply)]
        && chatbot.chatHistories
           == Respond(chatbot.chain, old(chatbot.chatHistories), sessionId,
                      RollInput(old(pendingRoll).value, total), None).histories
        && Sheet() == old(Sheet())
      ensures charName == old(charName) && charClass == old(charClass) && charBackstory == old(charBackstory)
    {
      var d := pendingRoll.value;
      if d.count > 0 && d.sides == 0 {
        return true, 0;
      }
      raised := false;
      total := Sum(draws);
      RollButtonTotal(d, draws);
      PlayerTurn(RollInput(d, total));
    }

    /** The chat input: an empty submission does nothing; any other text is logged,
        answered, and the answer decides the pending roll, replacing any roll that was
        still waiting. */
    method SendMessage(input: string)
      requires Valid() && characterCreated
      modifies this, chatbot
      ensures Valid()
      ensures input == "" ==>
        (messages == old(messages) && pendingRoll == old(pendingRoll)
         && chatbot.chatHistories == old(chatbot.chatHistories))
      ensures input != "" ==>
        && messages
           == old(messages) + [ChatMessage(User, input),
                               ChatMessage(Assistant,
                                           Respond(chatbot.chain, old(chatbot.chatHistories), sessionId,
                                                   input, None).reply)]
        && chatbot.chatHistories
           == Respond(chatbot.chain, old(chatbot.chatHistories), sessionId, input, None).histories
        && Sheet() == old(Sheet())
      ensures charName == old(charName) && charClass == old(charClass) && charBackstory == old(charBackstory)
    {
      if input == "" {
        return;
      }
      PlayerTurn(input);
    }
  }
}
